=== FILE: README.md ===
# Visual Novel Script Creator: story-data core in Dafny

This project models the pure story-data logic of the Visual Novel Script
Creator, a Streamlit app for planning a visual novel. The model covers:

- the record factories for characters, story arcs and milestones, and the dialogue
  scenes the editor builds;
- the placeholder dialogue-option generator;
- the export dispatcher and its three formats: JSON, Markdown and a CSV summary;
- the structure analysis: counts, role histogram, estimated length and pacing gaps;
- the rule-based structure validation.

Records are immutable datatypes and every operation is a pure function. The
exceptions are methods: `RoleHistogram` and `PacingGaps` loop as the source
does, and `MilestonePacing`, `AnalyzeStoryStructure` and the example
`PacingExamples` call them. Timestamps (`created_at` and `export_date`) are
parameters instead of clock reads.

The files:

- `seq_util.dfy` (`SeqUtil`) has the generic helpers:
  - counting by a predicate;
  - `max`;
  - a stable insertion sort by an integer key, the model of Python's `sorted`
    and `list.sort`;
  - the sum of a map's values.
- `story_records.dfy` (`StoryRecords`) has the records, the factories and the
  role and impact counters.
- `dialogue_options.dfy` (`DialogueOptions`) has the dialogue-option generator.
  The personality extras are appended after the four base options. The list
  is then cut to four entries, so the extras never survive. The model proves
  this.
- `markdown_export.dfy` (`MarkdownExport`) models the Markdown document as the
  list of lines that the exporter joins with newlines. Each line is a value
  saying what it shows, not its exact text.
- `csv_summary.dfy` (`CsvSummary`) models the CSV summary as its seven
  (metric, count) rows.
- `script_export.dfy` (`ScriptExport`) models the format dispatch. JSON output
  is modelled by the bundle it serialises.
- `story_analysis.dfy` (`StoryAnalysis`) has the structure analysis. Each pacing
  message is a `PacingGap(from, to)` value.
- `story_validation.dfy` (`StoryValidation`) has the validation. Each warning
  is a constructor of `Warning`.

The "Estimated Chapters" CSV metric is `max(chapters + [0])` (utils.py:341).
It is therefore 0, not the largest milestone chapter, when every milestone
chapter is negative (`CsvSummary.EstimatedChapters`).

## Model

| member | source | states |
|---|---|---|
| StoryRecords.CreateCharacter | src/streamlit_template/utils.py:78-107 | the character carries exactly the given name, role, age, personality, background, goals and timestamp |
| StoryRecords.CreateStoryArc | src/streamlit_template/utils.py:110-139 | the arc carries exactly the given name, description, chapter range, themes, character list and timestamp; the range is not checked |
| StoryRecords.CreateMilestone | src/streamlit_template/utils.py:142-171 | the milestone carries exactly the given name, description, chapter, type, impact, optional related arc and timestamp |
| StoryRecords.FactoriesCoverAllRecords | src/streamlit_template/utils.py:78-171 | every record is the one its factory builds from the record's own fields, so the factories add and drop nothing |
| StoryRecords.RolePartition | src/streamlit_template/utils.py:342-343 | main characters, supporting characters (neither main nor love interest) and love interests add up to the number of characters |
| StoryRecords.CountRoleSnoc | src/streamlit_template/utils.py:375-378 | counting one more character raises the count of its own role by one and leaves every other role's count unchanged |
| DialogueOptions.PersonalityOptions | src/streamlit_template/utils.py:197-203 | the confident, shy and aggressive extras are each present exactly when the lower-cased traits contain their keyword; nothing else is added, and they come in that order, each at most once |
| DialogueOptions.GenerateDialogueOptions | src/streamlit_template/utils.py:174-205 | the result always has four entries: the four base options in order, the first naming the situation; truncating to four discards every personality extra |
| DialogueOptions.OptionsIgnorePersonality | src/streamlit_template/utils.py:190-205 | two calls with the same situation give the same options whatever the character name and personality traits |
| DialogueOptions.ShyExtraIsDropped | src/streamlit_template/utils.py:200-205 | the traits "shy" do produce the hesitant extra, yet the options returned are exactly the base options |
| ScriptExport.ExportScriptFormat | src/streamlit_template/utils.py:208-248 | "Markdown" gives the Markdown document of the bundle of the arguments and "CSV Summary" the CSV rows of that bundle; every other format string, "JSON" included, gives the JSON bundle, which carries back the concept, the four lists and the export date unchanged |
| ScriptExport.UnknownFormatFallsBackToJson | src/streamlit_template/utils.py:238-248 | an unrecognised format string gives exactly the output of "JSON" |
| MarkdownExport.NumberedOptions | src/streamlit_template/utils.py:309-311 | the options list has one entry per branch; the i-th entry is branch i numbered first + i |
| MarkdownExport.SceneBlock | src/streamlit_template/utils.py:304-311 | a scene shows the "Response Options" header exactly when it has branches; its numbered options are the branches in order, numbered 1 to n |
| MarkdownExport.MarkdownLines | src/streamlit_template/utils.py:251-313 | the document opens with title, export date, concept heading and concept text; its section headings are the concept, then characters, arcs, milestones and scenes, each present exactly when its list is non-empty; one character heading (name and role) per character and one arc heading per arc, in input order; the milestone headings follow the stable chapter sort and the scene headings follow the input order; the response options are each scene's branches numbered from 1, scene after scene; as many "Response Options" headers as scenes with branches; and the scene lines (heading, options header, options) are, scene by scene, the heading followed by the header and the numbered branches exactly when that scene has branches |
| MarkdownExport.DocumentCharacterHeadings | src/streamlit_template/utils.py:268-276 | the character subsection headings of the document are the characters' name and role, one per character, in input order |
| MarkdownExport.DocumentArcHeadings | src/streamlit_template/utils.py:278-287 | the arc subsection headings of the document are the arc names, one per arc, in input order |
| MarkdownExport.DocumentResponseOptions | src/streamlit_template/utils.py:301-311 | the document's response options are each scene's branches numbered 1 to n, scene after scene in input order, and it has exactly one "Response Options" header per scene with branches |
| MarkdownExport.DocumentSceneOutline | src/streamlit_template/utils.py:301-311 | each scene heading of the document is followed, before the next scene heading, by the "Response Options" header and the branches numbered 1 to n exactly when that scene has branches, and by neither otherwise |
| MarkdownExport.ScenesOptions | src/streamlit_template/utils.py:303-311 | the scene subsections together hold every scene's branches numbered from 1, and one header per scene with branches |
| MarkdownExport.OneBranchSceneExample | src/streamlit_template/utils.py:307-310 | whatever the rest of the bundle, a scene with the one branch "Go" followed by a scene without branches gives exactly the option 1 "Go" and one header, placed under the first scene and not the second |
| MarkdownExport.MilestonesListedInChapterOrder | src/streamlit_template/utils.py:290-299 | the milestones appear in non-decreasing chapter order, each input milestone exactly once, with ties kept in input order |
| SeqUtil.SortBy | src/streamlit_template/utils.py:292 | the sort by chapter returns a permutation of its input in non-decreasing key order |
| SeqUtil.SortByStable | src/streamlit_template/utils.py:292 | the sort is stable: for every key, the elements with that key keep their input order |
| SeqUtil.Max | src/streamlit_template/utils.py:382-384 | Python's max of a non-empty list: an element of the list and at least every element |
| CsvSummary.EstimatedChapters | src/streamlit_template/utils.py:341 | the estimate is never negative, is at least every milestone chapter, is 0 or some milestone's chapter, and is 0 without milestones |
| CsvSummary.CsvRows | src/streamlit_template/utils.py:316-348 | seven rows with the fixed metric names in order; they count characters, arcs, milestones and scenes, give the chapter estimate and count main characters; main plus supporting plus love interests is the character total |
| CsvSummary.AvaExample | src/streamlit_template/utils.py:326-344 | one main character "Ava" and one milestone in chapter 5 give "Main Characters" = 1 and "Estimated Chapters" = 5 |
| StoryAnalysis.RoleHistogram | src/streamlit_template/utils.py:375-378 | the histogram has exactly the roles that occur as keys, each mapped to the positive number of characters with that role; its values add up to the number of characters |
| StoryAnalysis.HistogramStep | src/streamlit_template/utils.py:376-378 | counting one more character keeps the histogram exact |
| StoryAnalysis.EstimatedLength | src/streamlit_template/utils.py:380-384 | with milestones, the largest milestone chapter; else, with arcs, the largest arc end chapter; else 0 |
| StoryAnalysis.SortedChapters | src/streamlit_template/utils.py:388-389 | the milestone chapters, rearranged into non-decreasing order |
| StoryAnalysis.PacingGaps | src/streamlit_template/utils.py:391-394 | the report has one entry per adjacent pair more than three chapters apart, in scan order, and no other entry; it is empty exactly when no pair is that far apart |
| StoryAnalysis.MilestonePacing | src/streamlit_template/utils.py:386-394 | the pacing report of the sorted milestone chapters: empty without milestones, otherwise the large gaps in scan order |
| StoryAnalysis.AnalyzeStoryStructure | src/streamlit_template/utils.py:351-396 | the three counts, the role histogram (exact per role, summing to the character count), the estimated length, and the pacing report of the sorted milestone chapters, which is empty without milestones |
| StoryAnalysis.PacingExamples | src/streamlit_template/utils.py:386-394 | chapters 1, 2, 10 give exactly one gap (2 to 10); chapters 1, 2, 3 give none |
| StoryValidation.ChapterSpan | src/streamlit_template/utils.py:428-429 | the chapters from lo to hi inclusive, hi - lo + 1 of them, and none when lo > hi |
| StoryValidation.CoveredChapters | src/streamlit_template/utils.py:426-429 | a chapter is covered exactly when some arc's inclusive range contains it |
| StoryValidation.MainCharacterWarnings | src/streamlit_template/utils.py:416-421 | "add a main character" exactly when no character has the main role; "too many" exactly when more than three do |
| StoryValidation.CoverageWarnings | src/streamlit_template/utils.py:423-431 | the coverage warning fires exactly when there are arcs and fewer distinct chapters are covered than the largest end chapter |
| StoryValidation.MilestoneWarnings | src/streamlit_template/utils.py:433-439 | with milestones: "too many critical" exactly when more than three are Critical, and "no dramatic tension" exactly when none is High or Critical; nothing without milestones |
| StoryValidation.ValidateStoryStructure | src/streamlit_template/utils.py:399-441 | each of the five warnings appears exactly under its rule; the two main-character warnings exclude each other; at most four warnings, each at most once, in the order the rules are checked |
| StoryValidation.CoverageWarningHasUncoveredChapter | src/streamlit_template/utils.py:424-431 | whenever the coverage warning fires, some chapter from 1 to the largest end chapter is covered by no arc |
| StoryValidation.CoverageWarningExactFromChapterOne | src/streamlit_template/utils.py:424-431 | when every arc starts at chapter 1 or later, as the arc form requires, the coverage warning fires exactly when some chapter from 1 to the largest end chapter is covered by no arc |
| StoryValidation.SingleArcCoverage | src/streamlit_template/utils.py:424-431 | with one arc the warning fires exactly when the arc starts after chapter 1, or, for an empty range, when its end chapter is positive |
| StoryValidation.EmptyArcAddsNothing | src/streamlit_template/utils.py:427-429 | an arc whose start lies after its end adds no chapter to the coverage |
| StoryValidation.CoverageCountMissesGap | src/streamlit_template/utils.py:424-431 | arcs over chapters -2 to 0 and 2 to 4 leave chapter 1 uncovered, yet no warning is given, because the check compares counts rather than looking for gaps |

## Left out

- The pandas helpers (`get_sample_data`, `process_data`, `validate_dataframe`, utils.py lines 11-74) are not part of the story logic and are not modelled.
- Reading the clock (`datetime.now().isoformat()`) is replaced by a timestamp parameter to each factory and to the export.
- The serialised text is not modelled: the JSON text from `json.dumps(..., indent=2)`, the CSV text from `DataFrame.to_csv`, and the exact Markdown strings with their `"\n".join`. The JSON output is the bundle itself, the CSV output its rows, and the Markdown output its list of typed lines.
- Messages are values: the wording of the pacing messages and validation warnings is replaced by the `PacingGap` values and `Warning` constructors.
- The Streamlit user interface in `src/streamlit_template/app.py` is not modelled: widgets, session state, genre keyword detection, deletion by index, and the download file names. The dialogue scene record it builds is modelled as `StoryRecords.DialogueScene`.
- DialogueOptions.PersonalityOptions: `str.lower()` is modelled on ASCII letters only; Python lower-cases all of Unicode.
- The Python integers in the model are unbounded, as in the source.
- StoryAnalysis.RoleHistogram: the role histogram is a Dafny `map`, which has no key order. The Python dict built at utils.py:376-378 lists roles in the order they first occur; the model does not keep that order.

=== FILE: csv_summary.dfy ===
/**
 The CSV summary export: a two-column metric table, modelled as its list of
 (metric, count) rows; the CSV text itself is not modelled.
 */
module CsvSummary {
  import opened SeqUtil
  import opened StoryRecords

  datatype MetricRow = MetricRow(metric: string, count: int)

  const MetricNames: seq<string> := [
    "Total Characters",
    "Total Story Arcs",
    "Total Milestones",
    "Total Dialogue Scenes",
    "Estimated Chapters",
    "Main Characters",
    "Supporting Characters"
  ]

  /**
   The "Estimated Chapters" metric: the largest of the milestone chapters and 0,
   or 0 when there are no milestones. It is never negative.
   */
  function EstimatedChapters(ms: seq<Milestone>): (n: int)
    ensures n >= 0
    ensures forall i :: 0 <= i < |ms| ==> ms[i].chapter <= n
    ensures n == 0 || exists i :: 0 <= i < |ms| && ms[i].chapter == n
    ensures ms == [] ==> n == 0
  {
    if ms == [] then 0
    else
      var chapters := Chapters(ms) + [0];
      var n := Max(chapters);
      assert forall i :: 0 <= i < |ms| ==> chapters[i] == ms[i].chapter;
      assert chapters[|ms|] == 0;
      n
  }

  /**
   The seven summary rows in their fixed order. The main, supporting and
   love-interest counts together account for every character.
   */
  function CsvRows(b: ExportBundle): (r: seq<MetricRow>)
    ensures |r| == 7
    ensures forall i :: 0 <= i < 7 ==> r[i].metric == MetricNames[i]
    ensures r[0].count == |b.characters|
    ensures r[1].count == |b.storyArcs|
    ensures r[2].count == |b.milestones|
    ensures r[3].count == |b.dialogueScenes|
    ensures r[4].count >= 0
    ensures forall i :: 0 <= i < |b.milestones| ==> b.milestones[i].chapter <= r[4].count
    ensures r[4].count == 0 || exists i :: 0 <= i < |b.milestones| && b.milestones[i].chapter == r[4].count
    ensures b.milestones == [] ==> r[4].count == 0
    ensures r[5].count == CountRole(b.characters, MainCharacter)
    ensures r[5].count + r[6].count + CountRole(b.characters, LoveInterest) == r[0].count
  {
    RolePartition(b.characters);
    [ MetricRow(MetricNames[0], |b.characters|),
      MetricRow(MetricNames[1], |b.storyArcs|),
      MetricRow(MetricNames[2], |b.milestones|),
      MetricRow(MetricNames[3], |b.dialogueScenes|),
      MetricRow(MetricNames[4], EstimatedChapters(b.milestones)),
      MetricRow(MetricNames[5], CountRole(b.characters, MainCharacter)),
      MetricRow(MetricNames[6], CountSupporting(b.characters)) ]
  }

  /** Example: one main character "Ava" and one milestone in chapter 5. */
  lemma AvaExample(ava: Character, twist: Milestone, concept: string, date: string)
    requires ava == CreateCharacter("Ava", MainCharacter, 17, "", "", "", date)
    requires twist == CreateMilestone("Reveal", "", 5, "Plot Point", HighImpact, None, date)
    ensures CsvRows(ExportBundle(concept, [ava], [], [twist], [], date))[5] == MetricRow("Main Characters", 1)
    ensures CsvRows(ExportBundle(concept, [ava], [], [twist], [], date))[4] == MetricRow("Estimated Chapters", 5)
  {
    assert CountRole([ava], MainCharacter) == 1 by {
      assert [ava][1..] == [];
    }
  }
}

=== FILE: dialogue_options.dfy ===
/**
 The dialogue-option stub: four base options, up to three personality-driven
 extras appended after them, and the whole list truncated to its first four
 entries. Because the extras always come after the four base options, the
 truncation discards every one of them.
 */
module DialogueOptions {

  function LowerChar(c: char): char
  {
    if 'A' <= c <= 'Z' then (c as int + 32) as char else c
  }

  /** Lower-casing, on the ASCII letters only. */
  function Lower(s: string): string
  {
    seq(|s|, i requires 0 <= i < |s| => LowerChar(s[i]))
  }

  /** `sub` occurs in `s` starting at index `i`. */
  predicate OccursAt(s: string, sub: string, i: int)
  {
    0 <= i <= |s| - |sub| && s[i..i + |sub|] == sub
  }

  /** Python's `sub in s` for strings. */
  predicate ContainsSubstring(s: string, sub: string)
  {
    exists i :: 0 <= i <= |s| && OccursAt(s, sub, i)
  }

  /** The four options every call starts from; only the first mentions the situation. */
  function BaseOptions(situation: string): seq<string>
  {
    [ "What should we do about " + situation + "?",
      "I think we need to consider our options here.",
      "This reminds me of something that happened before.",
      "Let's approach this carefully." ]
  }

  const ConfidentExtra: string := "I know exactly what to do in this situation!"
  const ShyExtra: string := "Um... maybe we should think about this more?"
  const AggressiveExtra: string := "We need to take action now!"

  /** The position of an extra in the order the keywords are checked: confident, shy, aggressive. */
  function ExtraRank(option: string): int
  {
    if option == ConfidentExtra then 0 else if option == ShyExtra then 1 else 2
  }

  /**
   The extras appended for the keywords found in the lower-cased traits: each
   extra exactly when its keyword occurs, nothing else, and in the order
   confident, shy, aggressive.
   */
  function PersonalityOptions(personalityTraits: string): (r: seq<string>)
    ensures ConfidentExtra in r <==> ContainsSubstring(Lower(personalityTraits), "confident")
    ensures ShyExtra in r <==> ContainsSubstring(Lower(personalityTraits), "shy")
    ensures AggressiveExtra in r <==> ContainsSubstring(Lower(personalityTraits), "aggressive")
    ensures forall i :: 0 <= i < |r| ==> r[i] in [ConfidentExtra, ShyExtra, AggressiveExtra]
    ensures forall i, j :: 0 <= i < j < |r| ==> ExtraRank(r[i]) < ExtraRank(r[j])
    ensures |r| <= 3
  {
    var traits := Lower(personalityTraits);
    assert ConfidentExtra != ShyExtra && ShyExtra != AggressiveExtra && ConfidentExtra != AggressiveExtra by {
      assert ConfidentExtra[0] == 'I' && ShyExtra[0] == 'U' && AggressiveExtra[0] == 'W';
    }
    (if ContainsSubstring(traits, "confident") then [ConfidentExtra] else [])
    + (if ContainsSubstring(traits, "shy") then [ShyExtra] else [])
    + (if ContainsSubstring(traits, "aggressive") then [AggressiveExtra] else [])
  }

  /**
   The options offered to `characterName` in `situation`: always exactly the
   four base options in order, whatever the name and the personality traits.
   */
  function GenerateDialogueOptions(
    characterName: string, situation: string, personalityTraits: string): (r: seq<string>)
    ensures |r| == 4
    ensures r == BaseOptions(situation)
    ensures r[0] == "What should we do about " + situation + "?"
  {
    var options := BaseOptions(situation) + PersonalityOptions(personalityTraits);
    assert options[..4] == BaseOptions(situation);
    options[..4]
  }

  /** Neither the character's name nor its personality ever changes the options. */
  lemma OptionsIgnorePersonality(
    name1: string, name2: string, situation: string, traits1: string, traits2: string)
    ensures GenerateDialogueOptions(name1, situation, traits1)
            == GenerateDialogueOptions(name2, situation, traits2)
  {
  }

  /** Example: a shy character does get an extra option, but it is cut off. */
  lemma ShyExtraIsDropped()
    ensures PersonalityOptions("shy") == [ShyExtra]
    ensures GenerateDialogueOptions("Ava", "the storm", "shy") == BaseOptions("the storm")
  {
    var t := Lower("shy");
    assert t == "shy";
    assert OccursAt(t, "shy", 0);
  }
}

=== FILE: markdown_export.dfy ===
/**
 The Markdown export, modelled as the list of lines that the exporter joins
 with newlines. Each line is a value saying what it shows; the exact text of a
 line is not modelled.
 */
module MarkdownExport {
  import opened SeqUtil
  import opened StoryRecords

  datatype Section = StoryConcept | Characters | StoryArcs | StoryMilestones | DialogueScenes

  datatype Line =
    | Title
    | ExportDateLine(date: string)
    | SectionHeading(section: Section)
    | ConceptText(text: string)
    | CharacterHeading(name: string, role: string)
    | AgeLine(age: int)
    | PersonalityLine(text: string)
    | BackgroundLine(text: string)
    | GoalsLine(text: string)
    | ArcHeading(name: string)
    | ChapterRangeLine(startChapter: int, endChapter: int)
    | DescriptionLine(text: string)
    | ThemesLine(text: string)
    /** Names joined with ", " (possibly none at all for a dialogue scene). */
    | CharacterNamesLine(names: seq<string>)
    | MilestoneHeading(chapter: int, name: string)
    | TypeLine(text: string)
    | ImpactLine(text: string)
    | RelatedArcLine(arc: string)
    | SceneHeading(name: string, chapter: int)
    | DialogueLine(text: string)
    | ResponseOptionsHeading
    | ResponseOption(number: int, text: string)

  predicate IsSectionHeading(l: Line) { l.SectionHeading? }
  predicate IsMilestoneHeading(l: Line) { l.MilestoneHeading? }
  predicate IsSceneHeading(l: Line) { l.SceneHeading? }
  predicate IsResponseOption(l: Line) { l.ResponseOption? }
  predicate IsCharacterHeading(l: Line) { l.CharacterHeading? }
  predicate IsArcHeading(l: Line) { l.ArcHeading? }
  predicate IsResponseOptionsHeading(l: Line) { l.ResponseOptionsHeading? }
  /** The lines that outline a scene: its heading, the options header and the options. */
  predicate IsSceneLine(l: Line) { l.SceneHeading? || l.ResponseOptionsHeading? || l.ResponseOption? }

  predicate HasBranches(sc: DialogueScene) { sc.branches != [] }

  /** The lines of `lines` that satisfy `p`, in order. */
  function Select(lines: seq<Line>, p: Line -> bool): seq<Line>
  {
    if lines == [] then []
    else (if p(lines[0]) then [lines[0]] else []) + Select(lines[1..], p)
  }

  /** `f` applied to every element of `s`. */
  function Map<T>(s: seq<T>, f: T -> Line): (r: seq<Line>)
    ensures |r| == |s|
    ensures forall i :: 0 <= i < |s| ==> r[i] == f(s[i])
  {
    seq(|s|, i requires 0 <= i < |s| => f(s[i]))
  }

  /** The blocks of all elements of `s`, one after the other. */
  function Blocks<T>(s: seq<T>, block: T -> seq<Line>): seq<Line>
  {
    if s == [] then [] else block(s[0]) + Blocks(s[1..], block)
  }

  lemma {:induction false} SelectAppend(a: seq<Line>, b: seq<Line>, p: Line -> bool)
    ensures Select(a + b, p) == Select(a, p) + Select(b, p)
  {
    if a == [] {
      assert a + b == b;
    } else {
      var ab := a + b;
      var first := if p(a[0]) then [a[0]] else [];
      assert ab[0] == a[0];
      assert ab[1..] == a[1..] + b;
      calc {
        Select(ab, p);
        first + Select(a[1..] + b, p);
        { SelectAppend(a[1..], b, p); }
        first + (Select(a[1..], p) + Select(b, p));
        (first + Select(a[1..], p)) + Select(b, p);
        Select(a, p) + Select(b, p);
      }
    }
  }

  lemma {:induction false} SelectNone(lines: seq<Line>, p: Line -> bool)
    requires forall l :: l in lines ==> !p(l)
    ensures Select(lines, p) == []
  {
    if lines != [] {
      assert lines[0] in lines;
      SelectNone(lines[1..], p);
    }
  }

  lemma {:induction false} SelectAll(lines: seq<Line>, p: Line -> bool)
    requires forall l :: l in lines ==> p(l)
    ensures Select(lines, p) == lines
  {
    if lines != [] {
      assert lines[0] in lines;
      SelectAll(lines[1..], p);
    }
  }

  /** A block that starts with the one line `p` selects, followed by none. */
  lemma SelectHead(h: Line, rest: seq<Line>, p: Line -> bool)
    requires p(h)
    requires forall l :: l in rest ==> !p(l)
    ensures Select([h] + rest, p) == [h]
  {
    assert ([h] + rest)[1..] == rest;
    SelectNone(rest, p);
  }

  /** When no block has a line that `p` selects, neither do all of them together. */
  lemma {:induction false} BlocksSelectNone<T>(s: seq<T>, block: T -> seq<Line>, p: Line -> bool)
    requires forall x :: x in s ==> Select(block(x), p) == []
    ensures Select(Blocks(s, block), p) == []
  {
    if s != [] {
      assert s[0] in s;
      SelectAppend(block(s[0]), Blocks(s[1..], block), p);
      BlocksSelectNone(s[1..], block, p);
    }
  }

  /** When every block has exactly one line `p` selects, these lines come out in list order. */
  lemma {:induction false} BlocksSelectOne<T>(s: seq<T>, block: T -> seq<Line>, p: Line -> bool, f: T -> Line)
    requires forall x :: x in s ==> Select(block(x), p) == [f(x)]
    ensures Select(Blocks(s, block), p) == Map(s, f)
  {
    if s != [] {
      assert s[0] in s;
      assert Blocks(s, block) == block(s[0]) + Blocks(s[1..], block);
      SelectAppend(block(s[0]), Blocks(s[1..], block), p);
      assert forall x :: x in s[1..] ==> x in s;
      BlocksSelectOne(s[1..], block, p, f);
      var m := Map(s, f);
      var m1 := Map(s[1..], f);
      assert m == [f(s[0])] + m1 by {
        assert |m| == 1 + |m1|;
        forall i | 0 <= i < |m| ensures m[i] == ([f(s[0])] + m1)[i] {
          if i > 0 {
            assert m1[i - 1] == f(s[1..][i - 1]);
          }
        }
      }
    }
  }

  function CharacterBlock(c: Character): seq<Line>
  {
    [ CharacterHeading(c.name, c.role), AgeLine(c.age), PersonalityLine(c.personality),
      BackgroundLine(c.background), GoalsLine(c.goals) ]
  }

  /** The character list of an arc is shown only when it is non-empty. */
  function ArcBlock(a: StoryArc): seq<Line>
  {
    [ ArcHeading(a.name), ChapterRangeLine(a.startChapter, a.endChapter),
      DescriptionLine(a.description), ThemesLine(a.themes) ]
    + (if a.characters != [] then [CharacterNamesLine(a.characters)] else [])
  }

  /** The related arc is shown only when it is present and not the empty string. */
  function MilestoneBlock(m: Milestone): seq<Line>
  {
    [ MilestoneHeading(m.chapter, m.name), TypeLine(m.milestoneType),
      ImpactLine(m.impact), DescriptionLine(m.description) ]
    + (match m.relatedArc
       case Some(arc) => if arc != "" then [RelatedArcLine(arc)] else []
       case None => [])
  }

  /** The branches as a numbered list, the first one numbered `first`. */
  function NumberedOptions(branches: seq<string>, first: int): (r: seq<Line>)
    ensures |r| == |branches|
    ensures forall i :: 0 <= i < |branches| ==> r[i] == ResponseOption(first + i, branches[i])
  {
    if branches == [] then []
    else [ResponseOption(first, branches[0])] + NumberedOptions(branches[1..], first + 1)
  }

  /**
   One dialogue scene. The response options are numbered 1, 2, ..., n in the
   order of the branches, and their header appears exactly when there are
   branches.
   */
  function SceneBlock(sc: DialogueScene): (r: seq<Line>)
    ensures ResponseOptionsHeading in r <==> |sc.branches| > 0
    ensures |Select(r, IsResponseOption)| == |sc.branches|
    ensures forall i :: 0 <= i < |sc.branches| ==>
              Select(r, IsResponseOption)[i] == ResponseOption(i + 1, sc.branches[i])
  {
    var head := [SceneHeading(sc.name, sc.chapter), CharacterNamesLine(sc.characters), DialogueLine(sc.dialogue)];
    if sc.branches == [] then
      SelectNone(head, IsResponseOption);
      head
    else
      var options := NumberedOptions(sc.branches, 1);
      ResponseOptionsSelected(head, options);
      head + ([ResponseOptionsHeading] + options)
  }

  /** Behind a header without response options, the numbered list is all that is selected. */
  lemma ResponseOptionsSelected(head: seq<Line>, options: seq<Line>)
    requires forall l :: l in head ==> !l.ResponseOption?
    requires forall l :: l in options ==> l.ResponseOption?
    ensures Select(head + ([ResponseOptionsHeading] + options), IsResponseOption) == options
  {
    SelectNone(head, IsResponseOption);
    SelectAppend(head, [ResponseOptionsHeading] + options, IsResponseOption);
    SelectHeadSkipped(ResponseOptionsHeading, options, IsResponseOption);
    SelectAll(options, IsResponseOption);
  }

  lemma SelectHeadSkipped(h: Line, rest: seq<Line>, p: Line -> bool)
    requires !p(h)
    ensures Select([h] + rest, p) == Select(rest, p)
  {
    assert ([h] + rest)[1..] == rest;
  }

  function CharactersSection(cs: seq<Character>): seq<Line>
  {
    if cs == [] then [] else [SectionHeading(Characters)] + Blocks(cs, CharacterBlock)
  }

  function ArcsSection(arcs: seq<StoryArc>): seq<Line>
  {
    if arcs == [] then [] else [SectionHeading(StoryArcs)] + Blocks(arcs, ArcBlock)
  }

  /** Milestones are listed after a stable sort by chapter. */
  function MilestonesSection(ms: seq<Milestone>): seq<Line>
  {
    if ms == [] then []
    else [SectionHeading(StoryMilestones)] + Blocks(SortBy(ms, ChapterOf), MilestoneBlock)
  }

  function ScenesSection(scenes: seq<DialogueScene>): seq<Line>
  {
    if scenes == [] then [] else [SectionHeading(DialogueScenes)] + Blocks(scenes, SceneBlock)
  }

  function Preamble(b: ExportBundle): seq<Line>
  {
    [Title, ExportDateLine(b.exportDate), SectionHeading(StoryConcept), ConceptText(b.storyConcept)]
  }

  function MilestoneHeadingOf(m: Milestone): Line { MilestoneHeading(m.chapter, m.name) }

  function SceneHeadingOf(sc: DialogueScene): Line { SceneHeading(sc.name, sc.chapter) }

  function CharacterHeadingOf(c: Character): Line { CharacterHeading(c.name, c.role) }

  function ArcHeadingOf(a: StoryArc): Line { ArcHeading(a.name) }

  /** The section headings that a bundle's document has, in order. */
  function ExpectedSections(b: ExportBundle): seq<Line>
  {
    [SectionHeading(StoryConcept)]
    + (if b.characters != [] then [SectionHeading(Characters)] else [])
    + (if b.storyArcs != [] then [SectionHeading(StoryArcs)] else [])
    + (if b.milestones != [] then [SectionHeading(StoryMilestones)] else [])
    + (if b.dialogueScenes != [] then [SectionHeading(DialogueScenes)] else [])
  }

  /**
   The document of a bundle. It opens with the title, the export date and the
   story concept; each further section appears exactly when its list is
   non-empty, in the fixed order characters, arcs, milestones, scenes; the
   characters, arcs and scenes are listed one subsection each in input order,
   and the milestones by the stable chapter sort of the input; every scene with
   branches shows one options header and its branches numbered from 1.
   */
  function MarkdownLines(b: ExportBundle): (r: seq<Line>)
    ensures |r| >= 4
    ensures r[..4] == [Title, ExportDateLine(b.exportDate), SectionHeading(StoryConcept), ConceptText(b.storyConcept)]
    ensures Select(r, IsSectionHeading) == ExpectedSections(b)
    ensures Select(r, IsMilestoneHeading) == Map(SortBy(b.milestones, ChapterOf), MilestoneHeadingOf)
    ensures Select(r, IsSceneHeading) == Map(b.dialogueScenes, SceneHeadingOf)
    ensures Select(r, IsCharacterHeading) == Map(b.characters, CharacterHeadingOf)
    ensures Select(r, IsArcHeading) == Map(b.storyArcs, ArcHeadingOf)
    ensures Select(r, IsResponseOption) == SceneOptions(b.dialogueScenes)
    ensures |Select(r, IsResponseOptionsHeading)| == Count(b.dialogueScenes, HasBranches)
    ensures Select(r, IsSceneLine) == Blocks(b.dialogueScenes, SceneOutline)
  {
    var r := Document(b);
    DocumentOpening(b);
    DocumentSelects(b);
    DocumentCharacterHeadings(b);
    DocumentArcHeadings(b);
    DocumentResponseOptions(b);
    DocumentSceneOutline(b);
    r
  }

  /** The document opens with the preamble. */
  lemma DocumentOpening(b: ExportBundle)
    ensures |Document(b)| >= 4
    ensures Document(b)[..4] == [Title, ExportDateLine(b.exportDate), SectionHeading(StoryConcept), ConceptText(b.storyConcept)]
  {
    var pre := Preamble(b);
    var d1 := pre + CharactersSection(b.characters);
    var d2 := d1 + ArcsSection(b.storyArcs);
    var d3 := d2 + MilestonesSection(b.milestones);
    assert Document(b) == d3 + ScenesSection(b.dialogueScenes);
    PrefixKept(pre, CharactersSection(b.characters), 4);
    PrefixKept(d1, ArcsSection(b.storyArcs), 4);
    PrefixKept(d2, MilestonesSection(b.milestones), 4);
    PrefixKept(d3, ScenesSection(b.dialogueScenes), 4);
  }

  /** Appending to a list keeps its first `n` lines. */
  lemma PrefixKept(a: seq<Line>, rest: seq<Line>, n: nat)
    requires |a| >= n
    ensures |a + rest| >= n
    ensures (a + rest)[..n] == a[..n]
  {
  }

  /** The preamble followed by the four sections. */
  function Document(b: ExportBundle): seq<Line>
  {
    Preamble(b) + CharactersSection(b.characters) + ArcsSection(b.storyArcs)
    + MilestonesSection(b.milestones) + ScenesSection(b.dialogueScenes)
  }

  lemma DocumentSelects(b: ExportBundle)
    ensures Select(Document(b), IsSectionHeading) == ExpectedSections(b)
    ensures Select(Document(b), IsMilestoneHeading) == Map(SortBy(b.milestones, ChapterOf), MilestoneHeadingOf)
    ensures Select(Document(b), IsSceneHeading) == Map(b.dialogueScenes, SceneHeadingOf)
  {
    DocumentSectionHeadings(b);
    DocumentMilestoneHeadings(b);
    DocumentSceneHeadings(b);
  }

  lemma DocumentSectionHeadings(b: ExportBundle)
    ensures Select(Document(b), IsSectionHeading) == ExpectedSections(b)
  {
    SectionsSelect(b, IsSectionHeading);
    PreambleSelect(b);
    CharactersSectionSelect(b.characters);
    ArcsSectionSelect(b.storyArcs);
    MilestonesSectionSelect(b.milestones);
    ScenesSectionSelect(b.dialogueScenes);
  }

  lemma DocumentMilestoneHeadings(b: ExportBundle)
    ensures Select(Document(b), IsMilestoneHeading) == Map(SortBy(b.milestones, ChapterOf), MilestoneHeadingOf)
  {
    SectionsSelect(b, IsMilestoneHeading);
    PreambleSelect(b);
    CharactersSectionSelect(b.characters);
    ArcsSectionSelect(b.storyArcs);
    MilestonesSectionSelect(b.milestones);
    ScenesSectionSelect(b.dialogueScenes);
    var m := Map(SortBy(b.milestones, ChapterOf), MilestoneHeadingOf);
    assert [] + [] + [] + m + [] == m;
  }

  lemma DocumentSceneHeadings(b: ExportBundle)
    ensures Select(Document(b), IsSceneHeading) == Map(b.dialogueScenes, SceneHeadingOf)
  {
    SectionsSelect(b, IsSceneHeading);
    PreambleSelect(b);
    CharactersSectionSelect(b.characters);
    ArcsSectionSelect(b.storyArcs);
    MilestonesSectionSelect(b.milestones);
    ScenesSectionSelect(b.dialogueScenes);
    var m := Map(b.dialogueScenes, SceneHeadingOf);
    assert [] + [] + [] + [] + m == m;
  }

  /** Selecting from the document is selecting from each part. */
  lemma SectionsSelect(b: ExportBundle, p: Line -> bool)
    ensures Select(Document(b), p)
            == Select(Preamble(b), p) + Select(CharactersSection(b.characters), p)
               + Select(ArcsSection(b.storyArcs), p) + Select(MilestonesSection(b.milestones), p)
               + Select(ScenesSection(b.dialogueScenes), p)
  {
    var pre := Preamble(b);
    var chars := CharactersSection(b.characters);
    var arcs := ArcsSection(b.storyArcs);
    var ms := MilestonesSection(b.milestones);
    var scenes := ScenesSection(b.dialogueScenes);
    SelectAppend(pre + chars + arcs + ms, scenes, p);
    SelectAppend(pre + chars + arcs, ms, p);
    SelectAppend(pre + chars, arcs, p);
    SelectAppend(pre, chars, p);
  }

  /** A section selects its own heading followed by what its blocks select. */
  lemma SectionSelect(sec: Section, blocks: seq<Line>, p: Line -> bool)
    ensures Select([SectionHeading(sec)] + blocks, p)
            == (if p(SectionHeading(sec)) then [SectionHeading(sec)] else []) + Select(blocks, p)
  {
    SelectAppend([SectionHeading(sec)], blocks, p);
  }

  lemma PreambleSelect(b: ExportBundle)
    ensures Select(Preamble(b), IsSectionHeading) == [SectionHeading(StoryConcept)]
    ensures Select(Preamble(b), IsMilestoneHeading) == []
    ensures Select(Preamble(b), IsSceneHeading) == []
  {
    var pre := [Title, ExportDateLine(b.exportDate)];
    var post := [SectionHeading(StoryConcept), ConceptText(b.storyConcept)];
    assert Preamble(b) == pre + post;
    SelectAppend(pre, post, IsSectionHeading);
    SelectNone(pre, IsSectionHeading);
    SelectHead(SectionHeading(StoryConcept), [ConceptText(b.storyConcept)], IsSectionHeading);
    SelectNone(Preamble(b), IsMilestoneHeading);
    SelectNone(Preamble(b), IsSceneHeading);
  }

  lemma CharactersSectionSelect(cs: seq<Character>)
    ensures Select(CharactersSection(cs), IsSectionHeading)
            == (if cs != [] then [SectionHeading(Characters)] else [])
    ensures Select(CharactersSection(cs), IsMilestoneHeading) == []
    ensures Select(CharactersSection(cs), IsSceneHeading) == []
  {
    forall c | c in cs
      ensures Select(CharacterBlock(c), IsSectionHeading) == []
      ensures Select(CharacterBlock(c), IsMilestoneHeading) == []
      ensures Select(CharacterBlock(c), IsSceneHeading) == []
    {
      SelectNone(CharacterBlock(c), IsSectionHeading);
      SelectNone(CharacterBlock(c), IsMilestoneHeading);
      SelectNone(CharacterBlock(c), IsSceneHeading);
    }
    var blocks := Blocks(cs, CharacterBlock);
    BlocksSelectNone(cs, CharacterBlock, IsSectionHeading);
    BlocksSelectNone(cs, CharacterBlock, IsMilestoneHeading);
    BlocksSelectNone(cs, CharacterBlock, IsSceneHeading);
    SectionSelect(Characters, blocks, IsSectionHeading);
    SectionSelect(Characters, blocks, IsMilestoneHeading);
    SectionSelect(Characters, blocks, IsSceneHeading);
  }

  lemma ArcsSectionSelect(arcs: seq<StoryArc>)
    ensures Select(ArcsSection(arcs), IsSectionHeading)
            == (if arcs != [] then [SectionHeading(StoryArcs)] else [])
    ensures Select(ArcsSection(arcs), IsMilestoneHeading) == []
    ensures Select(ArcsSection(arcs), IsSceneHeading) == []
  {
    forall a | a in arcs
      ensures Select(ArcBlock(a), IsSectionHeading) == []
      ensures Select(ArcBlock(a), IsMilestoneHeading) == []
      ensures Select(ArcBlock(a), IsSceneHeading) == []
    {
      ArcBlockSelect(a);
    }
    var blocks := Blocks(arcs, ArcBlock);
    BlocksSelectNone(arcs, ArcBlock, IsSectionHeading);
    BlocksSelectNone(arcs, ArcBlock, IsMilestoneHeading);
    BlocksSelectNone(arcs, ArcBlock, IsSceneHeading);
    SectionSelect(StoryArcs, blocks, IsSectionHeading);
    SectionSelect(StoryArcs, blocks, IsMilestoneHeading);
    SectionSelect(StoryArcs, blocks, IsSceneHeading);
  }

  lemma ArcBlockSelect(a: StoryArc)
    ensures Select(ArcBlock(a), IsSectionHeading) == []
    ensures Select(ArcBlock(a), IsMilestoneHeading) == []
    ensures Select(ArcBlock(a), IsSceneHeading) == []
  {
    var block := ArcBlock(a);
    assert forall l :: l in block ==> !l.SectionHeading? && !l.MilestoneHeading? && !l.SceneHeading?;
    SelectNone(block, IsSectionHeading);
    SelectNone(block, IsMilestoneHeading);
    SelectNone(block, IsSceneHeading);
  }

  lemma MilestoneBlockSelect(m: Milestone)
    ensures Select(MilestoneBlock(m), IsSectionHeading) == []
    ensures Select(MilestoneBlock(m), IsMilestoneHeading) == [MilestoneHeadingOf(m)]
    ensures Select(MilestoneBlock(m), IsSceneHeading) == []
  {
    var block := MilestoneBlock(m);
    SelectNone(block, IsSectionHeading);
    SelectNone(block, IsSceneHeading);
    assert block == [MilestoneHeadingOf(m)] + block[1..];
    SelectHead(MilestoneHeadingOf(m), block[1..], IsMilestoneHeading);
  }

  lemma MilestonesSectionSelect(ms: seq<Milestone>)
    ensures Select(MilestonesSection(ms), IsSectionHeading)
            == (if ms != [] then [SectionHeading(StoryMilestones)] else [])
    ensures Select(MilestonesSection(ms), IsMilestoneHeading)
            == Map(SortBy(ms, ChapterOf), MilestoneHeadingOf)
    ensures Select(MilestonesSection(ms), IsSceneHeading) == []
  {
    var sorted := SortBy(ms, ChapterOf);
    forall m | m in sorted
      ensures Select(MilestoneBlock(m), IsSectionHeading) == []
      ensures Select(MilestoneBlock(m), IsMilestoneHeading) == [MilestoneHeadingOf(m)]
      ensures Select(MilestoneBlock(m), IsSceneHeading) == []
    {
      MilestoneBlockSelect(m);
    }
    var blocks := Blocks(sorted, MilestoneBlock);
    BlocksSelectNone(sorted, MilestoneBlock, IsSectionHeading);
    BlocksSelectOne(sorted, MilestoneBlock, IsMilestoneHeading, MilestoneHeadingOf);
    BlocksSelectNone(sorted, MilestoneBlock, IsSceneHeading);
    SectionSelect(StoryMilestones, blocks, IsSectionHeading);
    SectionSelect(StoryMilestones, blocks, IsMilestoneHeading);
    SectionSelect(StoryMilestones, blocks, IsSceneHeading);
  }

  lemma SceneBlockSelect(sc: DialogueScene)
    ensures Select(SceneBlock(sc), IsSectionHeading) == []
    ensures Select(SceneBlock(sc), IsMilestoneHeading) == []
    ensures Select(SceneBlock(sc), IsSceneHeading) == [SceneHeadingOf(sc)]
  {
    var block := SceneBlock(sc);
    assert forall l :: l in block ==> !l.SectionHeading? && !l.MilestoneHeading?;
    SelectNone(block, IsSectionHeading);
    SelectNone(block, IsMilestoneHeading);
    assert block == [SceneHeadingOf(sc)] + block[1..];
    SelectHead(SceneHeadingOf(sc), block[1..], IsSceneHeading);
  }

  lemma ScenesSectionSelect(scenes: seq<DialogueScene>)
    ensures Select(ScenesSection(scenes), IsSectionHeading)
            == (if scenes != [] then [SectionHeading(DialogueScenes)] else [])
    ensures Select(ScenesSection(scenes), IsMilestoneHeading) == []
    ensures Select(ScenesSection(scenes), IsSceneHeading) == Map(scenes, SceneHeadingOf)
  {
    forall sc | sc in scenes
      ensures Select(SceneBlock(sc), IsSectionHeading) == []
      ensures Select(SceneBlock(sc), IsMilestoneHeading) == []
      ensures Select(SceneBlock(sc), IsSceneHeading) == [SceneHeadingOf(sc)]
    {
      SceneBlockSelect(sc);
    }
    var blocks := Blocks(scenes, SceneBlock);
    BlocksSelectNone(scenes, SceneBlock, IsSectionHeading);
    BlocksSelectNone(scenes, SceneBlock, IsMilestoneHeading);
    BlocksSelectOne(scenes, SceneBlock, IsSceneHeading, SceneHeadingOf);
    SectionSelect(DialogueScenes, blocks, IsSectionHeading);
    SectionSelect(DialogueScenes, blocks, IsMilestoneHeading);
    SectionSelect(DialogueScenes, blocks, IsSceneHeading);
  }

  /** A section none of whose blocks has a line `p` selects has no such line at all. */
  lemma SectionSelectNone<T>(sec: Section, s: seq<T>, block: T -> seq<Line>, p: Line -> bool)
    requires !p(SectionHeading(sec))
    requires forall x :: x in s ==> Select(block(x), p) == []
    ensures Select(if s == [] then [] else [SectionHeading(sec)] + Blocks(s, block), p) == []
  {
    if s != [] {
      BlocksSelectNone(s, block, p);
      SectionSelect(sec, Blocks(s, block), p);
    }
  }

  /** A section each of whose blocks has exactly one line `p` selects yields these lines in order. */
  lemma SectionSelectOne<T>(sec: Section, s: seq<T>, block: T -> seq<Line>, p: Line -> bool, f: T -> Line)
    requires !p(SectionHeading(sec))
    requires forall x :: x in s ==> Select(block(x), p) == [f(x)]
    ensures Select(if s == [] then [] else [SectionHeading(sec)] + Blocks(s, block), p) == Map(s, f)
  {
    if s != [] {
      BlocksSelectOne(s, block, p, f);
      SectionSelect(sec, Blocks(s, block), p);
    }
  }

  /** A character's block has its own heading and no arc heading. */
  lemma CharacterBlockHeadings(c: Character)
    ensures Select(CharacterBlock(c), IsCharacterHeading) == [CharacterHeadingOf(c)]
    ensures Select(CharacterBlock(c), IsArcHeading) == []
  {
    var block := CharacterBlock(c);
    assert block == [CharacterHeadingOf(c)] + block[1..];
    SelectHead(CharacterHeadingOf(c), block[1..], IsCharacterHeading);
    SelectNone(block, IsArcHeading);
  }

  /** An arc's block has its own heading and no character heading. */
  lemma ArcBlockHeadings(a: StoryArc)
    ensures Select(ArcBlock(a), IsArcHeading) == [ArcHeadingOf(a)]
    ensures Select(ArcBlock(a), IsCharacterHeading) == []
  {
    var block := ArcBlock(a);
    assert block == [ArcHeadingOf(a)] + block[1..];
    SelectHead(ArcHeadingOf(a), block[1..], IsArcHeading);
    SelectNone(block, IsCharacterHeading);
  }

  lemma MilestoneBlockHeadings(m: Milestone)
    ensures Select(MilestoneBlock(m), IsCharacterHeading) == []
    ensures Select(MilestoneBlock(m), IsArcHeading) == []
  {
    SelectNone(MilestoneBlock(m), IsCharacterHeading);
    SelectNone(MilestoneBlock(m), IsArcHeading);
  }

  lemma SceneBlockHeadings(sc: DialogueScene)
    ensures Select(SceneBlock(sc), IsCharacterHeading) == []
    ensures Select(SceneBlock(sc), IsArcHeading) == []
  {
    var block := SceneBlock(sc);
    assert forall l :: l in block ==> !l.CharacterHeading? && !l.ArcHeading?;
    SelectNone(block, IsCharacterHeading);
    SelectNone(block, IsArcHeading);
  }

  lemma CharactersSectionHeadings(cs: seq<Character>)
    ensures Select(CharactersSection(cs), IsCharacterHeading) == Map(cs, CharacterHeadingOf)
    ensures Select(CharactersSection(cs), IsArcHeading) == []
  {
    forall c | c in cs
      ensures Select(CharacterBlock(c), IsCharacterHeading) == [CharacterHeadingOf(c)]
      ensures Select(CharacterBlock(c), IsArcHeading) == []
    {
      CharacterBlockHeadings(c);
    }
    SectionSelectOne(Characters, cs, CharacterBlock, IsCharacterHeading, CharacterHeadingOf);
    SectionSelectNone(Characters, cs, CharacterBlock, IsArcHeading);
  }

  lemma ArcsSectionHeadings(arcs: seq<StoryArc>)
    ensures Select(ArcsSection(arcs), IsArcHeading) == Map(arcs, ArcHeadingOf)
    ensures Select(ArcsSection(arcs), IsCharacterHeading) == []
  {
    forall a | a in arcs
      ensures Select(ArcBlock(a), IsArcHeading) == [ArcHeadingOf(a)]
      ensures Select(ArcBlock(a), IsCharacterHeading) == []
    {
      ArcBlockHeadings(a);
    }
    SectionSelectOne(StoryArcs, arcs, ArcBlock, IsArcHeading, ArcHeadingOf);
    SectionSelectNone(StoryArcs, arcs, ArcBlock, IsCharacterHeading);
  }

  lemma MilestonesSectionHeadings(ms: seq<Milestone>)
    ensures Select(MilestonesSection(ms), IsCharacterHeading) == []
    ensures Select(MilestonesSection(ms), IsArcHeading) == []
  {
    var sorted := SortBy(ms, ChapterOf);
    forall m | m in sorted
      ensures Select(MilestoneBlock(m), IsCharacterHeading) == []
      ensures Select(MilestoneBlock(m), IsArcHeading) == []
    {
      MilestoneBlockHeadings(m);
    }
    assert sorted == [] <==> ms == [];
    SectionSelectNone(StoryMilestones, sorted, MilestoneBlock, IsCharacterHeading);
    SectionSelectNone(StoryMilestones, sorted, MilestoneBlock, IsArcHeading);
  }

  lemma ScenesSectionHeadings(scenes: seq<DialogueScene>)
    ensures Select(ScenesSection(scenes), IsCharacterHeading) == []
    ensures Select(ScenesSection(scenes), IsArcHeading) == []
  {
    forall sc | sc in scenes
      ensures Select(SceneBlock(sc), IsCharacterHeading) == []
      ensures Select(SceneBlock(sc), IsArcHeading) == []
    {
      SceneBlockHeadings(sc);
    }
    SectionSelectNone(DialogueScenes, scenes, SceneBlock, IsCharacterHeading);
    SectionSelectNone(DialogueScenes, scenes, SceneBlock, IsArcHeading);
  }

  /** Only the characters section has character headings, one per character in input order. */
  lemma DocumentCharacterHeadings(b: ExportBundle)
    ensures Select(Document(b), IsCharacterHeading) == Map(b.characters, CharacterHeadingOf)
  {
    var m := Map(b.characters, CharacterHeadingOf);
    SectionsSelect(b, IsCharacterHeading);
    calc {
      Select(Document(b), IsCharacterHeading);
      Select(Preamble(b), IsCharacterHeading) + Select(CharactersSection(b.characters), IsCharacterHeading)
      + Select(ArcsSection(b.storyArcs), IsCharacterHeading) + Select(MilestonesSection(b.milestones), IsCharacterHeading)
      + Select(ScenesSection(b.dialogueScenes), IsCharacterHeading);
      { SelectNone(Preamble(b), IsCharacterHeading);
        CharactersSectionHeadings(b.characters);
        ArcsSectionHeadings(b.storyArcs);
        MilestonesSectionHeadings(b.milestones);
        ScenesSectionHeadings(b.dialogueScenes); }
      [] + m + [] + [] + [];
      m;
    }
  }

  /** Only the arcs section has arc headings, one per arc in input order. */
  lemma DocumentArcHeadings(b: ExportBundle)
    ensures Select(Document(b), IsArcHeading) == Map(b.storyArcs, ArcHeadingOf)
  {
    var m := Map(b.storyArcs, ArcHeadingOf);
    SectionsSelect(b, IsArcHeading);
    calc {
      Select(Document(b), IsArcHeading);
      Select(Preamble(b), IsArcHeading) + Select(CharactersSection(b.characters), IsArcHeading)
      + Select(ArcsSection(b.storyArcs), IsArcHeading) + Select(MilestonesSection(b.milestones), IsArcHeading)
      + Select(ScenesSection(b.dialogueScenes), IsArcHeading);
      { SelectNone(Preamble(b), IsArcHeading);
        CharactersSectionHeadings(b.characters);
        ArcsSectionHeadings(b.storyArcs);
        MilestonesSectionHeadings(b.milestones);
        ScenesSectionHeadings(b.dialogueScenes); }
      [] + [] + m + [] + [];
      m;
    }
  }

  /** The response options of all scenes, in scene order, each scene's branches numbered from 1. */
  function SceneOptions(scenes: seq<DialogueScene>): seq<Line>
  {
    if scenes == [] then [] else NumberedOptions(scenes[0].branches, 1) + SceneOptions(scenes[1..])
  }

  /** A scene's block holds its branches numbered from 1, and one options header exactly when it has branches. */
  lemma SceneBlockOptions(sc: DialogueScene)
    ensures Select(SceneBlock(sc), IsResponseOption) == NumberedOptions(sc.branches, 1)
    ensures Select(SceneBlock(sc), IsResponseOptionsHeading)
            == if HasBranches(sc) then [ResponseOptionsHeading] else []
  {
    var head := [SceneHeading(sc.name, sc.chapter), CharacterNamesLine(sc.characters), DialogueLine(sc.dialogue)];
    SelectNone(head, IsResponseOptionsHeading);
    if HasBranches(sc) {
      var options := NumberedOptions(sc.branches, 1);
      assert SceneBlock(sc) == head + ([ResponseOptionsHeading] + options);
      ResponseOptionsSelected(head, options);
      SelectAppend(head, [ResponseOptionsHeading] + options, IsResponseOptionsHeading);
      SelectHead(ResponseOptionsHeading, options, IsResponseOptionsHeading);
    } else {
      SelectNone(head, IsResponseOption);
    }
  }

  /** The scene blocks together hold every scene's numbered options, and one header per scene with branches. */
  lemma {:induction false} ScenesOptions(scenes: seq<DialogueScene>)
    ensures Select(Blocks(scenes, SceneBlock), IsResponseOption) == SceneOptions(scenes)
    ensures |Select(Blocks(scenes, SceneBlock), IsResponseOptionsHeading)| == Count(scenes, HasBranches)
  {
    if scenes != [] {
      var first := SceneBlock(scenes[0]);
      var rest := Blocks(scenes[1..], SceneBlock);
      SelectAppend(first, rest, IsResponseOption);
      SelectAppend(first, rest, IsResponseOptionsHeading);
      SceneBlockOptions(scenes[0]);
      ScenesOptions(scenes[1..]);
    }
  }

  /** `p` selects only scene lines. */
  ghost predicate SceneLinesOnly(p: Line -> bool)
  {
    forall l :: p(l) ==> IsSceneLine(l)
  }

  lemma CharactersSectionNoSceneLines(cs: seq<Character>, p: Line -> bool)
    requires SceneLinesOnly(p)
    ensures Select(CharactersSection(cs), p) == []
  {
    forall c | c in cs ensures Select(CharacterBlock(c), p) == [] {
      SelectNone(CharacterBlock(c), p);
    }
    SectionSelectNone(Characters, cs, CharacterBlock, p);
  }

  lemma ArcsSectionNoSceneLines(arcs: seq<StoryArc>, p: Line -> bool)
    requires SceneLinesOnly(p)
    ensures Select(ArcsSection(arcs), p) == []
  {
    forall a | a in arcs ensures Select(ArcBlock(a), p) == [] {
      SelectNone(ArcBlock(a), p);
    }
    SectionSelectNone(StoryArcs, arcs, ArcBlock, p);
  }

  lemma MilestonesSectionNoSceneLines(ms: seq<Milestone>, p: Line -> bool)
    requires SceneLinesOnly(p)
    ensures Select(MilestonesSection(ms), p) == []
  {
    var sorted := SortBy(ms, ChapterOf);
    forall m | m in sorted ensures Select(MilestoneBlock(m), p) == [] {
      SelectNone(MilestoneBlock(m), p);
    }
    assert sorted == [] <==> ms == [];
    SectionSelectNone(StoryMilestones, sorted, MilestoneBlock, p);
  }

  lemma ScenesSectionSceneLines(scenes: seq<DialogueScene>, p: Line -> bool)
    requires SceneLinesOnly(p)
    ensures Select(ScenesSection(scenes), p) == Select(Blocks(scenes, SceneBlock), p)
  {
    if scenes != [] {
      SectionSelect(DialogueScenes, Blocks(scenes, SceneBlock), p);
    }
  }

  /** Scene lines occur only in the scene blocks of the document. */
  lemma DocumentSceneLines(b: ExportBundle, p: Line -> bool)
    requires SceneLinesOnly(p)
    ensures Select(Document(b), p) == Select(Blocks(b.dialogueScenes, SceneBlock), p)
  {
    var scenes := Select(Blocks(b.dialogueScenes, SceneBlock), p);
    SectionsSelect(b, p);
    OtherPartsNoSceneLines(b, p);
    ScenesSectionSceneLines(b.dialogueScenes, p);
    assert [] + [] + [] + [] + scenes == scenes;
  }

  /** The preamble and the character, arc and milestone sections have no scene lines. */
  lemma OtherPartsNoSceneLines(b: ExportBundle, p: Line -> bool)
    requires SceneLinesOnly(p)
    ensures Select(Preamble(b), p) == []
    ensures Select(CharactersSection(b.characters), p) == []
    ensures Select(ArcsSection(b.storyArcs), p) == []
    ensures Select(MilestonesSection(b.milestones), p) == []
  {
    SelectNone(Preamble(b), p);
    CharactersSectionNoSceneLines(b.characters, p);
    ArcsSectionNoSceneLines(b.storyArcs, p);
    MilestonesSectionNoSceneLines(b.milestones, p);
  }

  /**
   The outline of one scene: its heading, then, exactly when it has branches,
   the options header followed by the branches numbered from 1.
   */
  function SceneOutline(sc: DialogueScene): seq<Line>
  {
    [SceneHeadingOf(sc)]
    + (if HasBranches(sc) then [ResponseOptionsHeading] + NumberedOptions(sc.branches, 1) else [])
  }

  /** A scene's block outlines that scene. */
  lemma SceneBlockOutline(sc: DialogueScene)
    ensures Select(SceneBlock(sc), IsSceneLine) == SceneOutline(sc)
  {
    var head := [SceneHeading(sc.name, sc.chapter), CharacterNamesLine(sc.characters), DialogueLine(sc.dialogue)];
    assert head == [SceneHeadingOf(sc)] + head[1..];
    SelectHead(SceneHeadingOf(sc), head[1..], IsSceneLine);
    if HasBranches(sc) {
      var tail := [ResponseOptionsHeading] + NumberedOptions(sc.branches, 1);
      assert SceneBlock(sc) == head + tail;
      assert forall l :: l in tail ==> IsSceneLine(l);
      SelectAll(tail, IsSceneLine);
      SelectAppend(head, tail, IsSceneLine);
    }
  }

  /** The scene blocks together outline the scenes one after the other. */
  lemma {:induction false} ScenesOutline(scenes: seq<DialogueScene>)
    ensures Select(Blocks(scenes, SceneBlock), IsSceneLine) == Blocks(scenes, SceneOutline)
  {
    if scenes != [] {
      SelectAppend(SceneBlock(scenes[0]), Blocks(scenes[1..], SceneBlock), IsSceneLine);
      SceneBlockOutline(scenes[0]);
      ScenesOutline(scenes[1..]);
    }
  }

  /**
   Every scene heading of the document is followed, before the next one, by
   the options header and the numbered branches exactly when that scene has
   branches.
   */
  lemma DocumentSceneOutline(b: ExportBundle)
    ensures Select(Document(b), IsSceneLine) == Blocks(b.dialogueScenes, SceneOutline)
  {
    DocumentSceneLines(b, IsSceneLine);
    ScenesOutline(b.dialogueScenes);
  }

  /**
   The document's response options are each scene's branches numbered from 1,
   scene after scene, and it has one options header per scene with branches.
   */
  lemma DocumentResponseOptions(b: ExportBundle)
    ensures Select(Document(b), IsResponseOption) == SceneOptions(b.dialogueScenes)
    ensures |Select(Document(b), IsResponseOptionsHeading)| == Count(b.dialogueScenes, HasBranches)
  {
    DocumentSceneLines(b, IsResponseOption);
    DocumentSceneLines(b, IsResponseOptionsHeading);
    ScenesOptions(b.dialogueScenes);
  }

  /**
   Whatever the rest of the bundle, a scene with the one branch "Go" followed
   by a scene without branches: the document numbers the branch 1 and shows one
   options header, under the first scene and not the second.
   */
  lemma OneBranchSceneExample(b: ExportBundle)
    requires b.dialogueScenes == [DialogueScene("S", 1, [], "", ["Go"]), DialogueScene("T", 2, [], "", [])]
    ensures Select(MarkdownLines(b), IsResponseOption) == [ResponseOption(1, "Go")]
    ensures |Select(MarkdownLines(b), IsResponseOptionsHeading)| == 1
    ensures Select(MarkdownLines(b), IsSceneLine)
            == [SceneHeading("S", 1), ResponseOptionsHeading, ResponseOption(1, "Go"), SceneHeading("T", 2)]
  {
    OneBranchSceneOptions(b.dialogueScenes);
  }

  lemma OneBranchSceneOptions(scenes: seq<DialogueScene>)
    requires scenes == [DialogueScene("S", 1, [], "", ["Go"]), DialogueScene("T", 2, [], "", [])]
    ensures SceneOptions(scenes) == [ResponseOption(1, "Go")]
    ensures Count(scenes, HasBranches) == 1
    ensures Blocks(scenes, SceneOutline)
            == [SceneHeading("S", 1), ResponseOptionsHeading, ResponseOption(1, "Go"), SceneHeading("T", 2)]
  {
    var s2 := scenes[1];
    assert scenes[1..] == [s2];
    assert [s2][1..] == [];
    assert NumberedOptions(scenes[0].branches, 1) == [ResponseOption(1, "Go")];
    assert SceneOptions([s2]) == NumberedOptions([], 1) + SceneOptions([]) == [];
    assert Count(scenes, HasBranches) == 1 + Count([s2], HasBranches);
    assert SceneOutline(scenes[0]) == [SceneHeading("S", 1), ResponseOptionsHeading, ResponseOption(1, "Go")];
    assert SceneOutline(s2) == [SceneHeading("T", 2)];
    assert Blocks([s2], SceneOutline) == SceneOutline(s2) + Blocks([], SceneOutline);
  }

  /**
   The milestones of the document come in non-decreasing chapter order, each
   input milestone exactly once, and milestones of equal chapter in input order.
   */
  lemma MilestonesListedInChapterOrder(b: ExportBundle, chapter: int)
    ensures var sorted := SortBy(b.milestones, ChapterOf);
            && Select(MarkdownLines(b), IsMilestoneHeading) == Map(sorted, MilestoneHeadingOf)
            && (forall i, j :: 0 <= i < j < |sorted| ==> sorted[i].chapter <= sorted[j].chapter)
            && multiset(sorted) == multiset(b.milestones)
            && WithKey(sorted, ChapterOf, chapter) == WithKey(b.milestones, ChapterOf, chapter)
  {
    SortByStable(b.milestones, ChapterOf, chapter);
  }
}

=== FILE: script_export.dfy ===
/**
 The export dispatcher. It assembles one bundle from the concept, the four
 lists and the export date, and hands it to the formatter the format string
 names. JSON serialisation is modelled by the bundle itself: the JSON output
 carries every field of the bundle unchanged.
 */
module ScriptExport {
  import opened StoryRecords
  import MarkdownExport
  import CsvSummary

  datatype ExportOutput =
    | Json(bundle: ExportBundle)
    | Markdown(lines: seq<MarkdownExport.Line>)
    | Csv(rows: seq<CsvSummary.MetricRow>)

  const JsonFormat: string := "JSON"
  const MarkdownFormat: string := "Markdown"
  const CsvFormat: string := "CSV Summary"

  /**
   Only "Markdown" and "CSV Summary" reach their own formatters, which receive
   the bundle of the arguments; every other format string, "JSON" included,
   yields the JSON form of that bundle, which gives back the concept, all four
   lists and the export date exactly.
   */
  function ExportScriptFormat(
    storyConcept: string,
    characters: seq<Character>,
    storyArcs: seq<StoryArc>,
    milestones: seq<Milestone>,
    dialogueScenes: seq<DialogueScene>,
    formatType: string,
    exportDate: string): (r: ExportOutput)
    ensures r.Markdown? <==> formatType == MarkdownFormat
    ensures r.Csv? <==> formatType == CsvFormat
    ensures r.Json? <==> formatType != MarkdownFormat && formatType != CsvFormat
    ensures r.Json? ==>
              && r.bundle.storyConcept == storyConcept
              && r.bundle.characters == characters
              && r.bundle.storyArcs == storyArcs
              && r.bundle.milestones == milestones
              && r.bundle.dialogueScenes == dialogueScenes
              && r.bundle.exportDate == exportDate
    ensures r.Markdown? ==>
              r.lines == MarkdownExport.MarkdownLines(
                ExportBundle(storyConcept, characters, storyArcs, milestones, dialogueScenes, exportDate))
    ensures r.Csv? ==>
              r.rows == CsvSummary.CsvRows(
                ExportBundle(storyConcept, characters, storyArcs, milestones, dialogueScenes, exportDate))
  {
    var bundle := ExportBundle(storyConcept, characters, storyArcs, milestones, dialogueScenes, exportDate);
    if formatType == JsonFormat then Json(bundle)
    else if formatType == MarkdownFormat then Markdown(MarkdownExport.MarkdownLines(bundle))
    else if formatType == CsvFormat then Csv(CsvSummary.CsvRows(bundle))
    else Json(bundle)
  }

  /** An unknown format string gives exactly what "JSON" gives. */
  lemma UnknownFormatFallsBackToJson(
    storyConcept: string,
    characters: seq<Character>,
    storyArcs: seq<StoryArc>,
    milestones: seq<Milestone>,
    dialogueScenes: seq<DialogueScene>,
    formatType: string,
    exportDate: string)
    requires formatType != MarkdownFormat && formatType != CsvFormat
    ensures ExportScriptFormat(storyConcept, characters, storyArcs, milestones, dialogueScenes, formatType, exportDate)
            == ExportScriptFormat(storyConcept, characters, storyArcs, milestones, dialogueScenes, JsonFormat, exportDate)
  {
  }
}

=== FILE: seq_util.dfy ===
/**
 Generic sequence and map helpers that the story-data functions are built from:
 counting by a predicate, the maximum of a non-empty list, a stable sort by an
 integer key (the behaviour of Python's `sorted(..., key=...)` and `list.sort()`),
 and the sum of the values of a map.
 */
module SeqUtil {

  /** Number of elements of `s` that satisfy `p`, counted from the front. */
  function Count<T>(s: seq<T>, p: T -> bool): (n: nat)
    ensures n <= |s|
    ensures n == 0 <==> forall i :: 0 <= i < |s| ==> !p(s[i])
  {
    if s == [] then 0
    else
      var rest := Count(s[1..], p);
      assert forall i :: 1 <= i < |s| ==> s[i] == s[1..][i - 1];
      (if p(s[0]) then 1 else 0) + rest
  }

  /** Counting distributes over concatenation. */
  lemma {:induction false} CountAppend<T>(s: seq<T>, t: seq<T>, p: T -> bool)
    ensures Count(s + t, p) == Count(s, p) + Count(t, p)
  {
    if s == [] {
      assert s + t == t;
    } else {
      assert (s + t)[1..] == s[1..] + t;
      CountAppend(s[1..], t, p);
    }
  }

  /** Largest element of a non-empty list (Python's `max`). */
  function Max(xs: seq<int>): (m: int)
    requires |xs| > 0
    ensures m in xs
    ensures forall i :: 0 <= i < |xs| ==> xs[i] <= m
  {
    if |xs| == 1 then xs[0]
    else
      var rest := Max(xs[1..]);
      assert forall i :: 1 <= i < |xs| ==> xs[i] == xs[1..][i - 1];
      if xs[0] >= rest then xs[0] else rest
  }

  /** The keys of `s` never decrease from left to right. */
  ghost predicate SortedBy<T>(s: seq<T>, key: T -> int)
  {
    forall i, j :: 0 <= i < j < |s| ==> key(s[i]) <= key(s[j])
  }

  /** The elements of `s` whose key is `k`, in their order in `s`. */
  function WithKey<T>(s: seq<T>, key: T -> int, k: int): (r: seq<T>)
    ensures |r| <= |s|
  {
    if s == [] then []
    else (if key(s[0]) == k then [s[0]] else []) + WithKey(s[1..], key, k)
  }

  /**
   Inserts `x` into the sorted list `s` in front of every element whose key is
   at least `key(x)`, so that `x` precedes the elements with an equal key.
   */
  function InsertBy<T>(x: T, s: seq<T>, key: T -> int): (r: seq<T>)
    requires SortedBy(s, key)
    ensures SortedBy(r, key)
    ensures multiset(r) == multiset(s) + multiset{x}
  {
    if s == [] || key(x) <= key(s[0]) then
      SortedCons(x, s, key);
      [x] + s
    else
      var tail := InsertBy(x, s[1..], key);
      assert forall y :: y in tail ==> key(s[0]) <= key(y) by {
        forall y | y in tail ensures key(s[0]) <= key(y) {
          assert y in multiset(tail);
          assert y in multiset(s[1..]) || y == x;
        }
      }
      SortedCons(s[0], tail, key);
      assert s == [s[0]] + s[1..];
      [s[0]] + tail
  }

  /** A sorted list stays sorted when an element no larger than all of it is put in front. */
  lemma SortedCons<T>(h: T, t: seq<T>, key: T -> int)
    requires SortedBy(t, key)
    requires forall y :: y in t ==> key(h) <= key(y)
    ensures SortedBy([h] + t, key)
  {
    var r := [h] + t;
    forall i, j | 0 <= i < j < |r| ensures key(r[i]) <= key(r[j]) {
      assert r[j] == t[j - 1];
      if i > 0 {
        assert r[i] == t[i - 1];
      }
    }
  }

  /**
   Stable insertion sort by an integer key: the result is sorted, is a
   permutation of the input, and keeps equal-keyed elements in input order
   (see SortByStable).
   */
  function SortBy<T>(s: seq<T>, key: T -> int): (r: seq<T>)
    ensures SortedBy(r, key)
    ensures multiset(r) == multiset(s)
    ensures |r| == |s|
  {
    if s == [] then []
    else
      var r := InsertBy(s[0], SortBy(s[1..], key), key);
      assert s == [s[0]] + s[1..];
      assert |r| == |multiset(r)| == |multiset(s)|;
      r
  }

  /** Selecting by key distributes over concatenation. */
  lemma {:induction false} WithKeyAppend<T>(a: seq<T>, b: seq<T>, key: T -> int, k: int)
    ensures WithKey(a + b, key, k) == WithKey(a, key, k) + WithKey(b, key, k)
  {
    if a != [] {
      assert (a + b)[1..] == a[1..] + b;
      WithKeyAppend(a[1..], b, key, k);
    } else {
      assert a + b == b;
    }
  }

  /** Inserting `x` puts it in front of every element that shares its key. */
  lemma {:induction false} InsertByWithKey<T>(x: T, s: seq<T>, key: T -> int, k: int)
    requires SortedBy(s, key)
    ensures WithKey(InsertBy(x, s, key), key, k)
            == (if key(x) == k then [x] else []) + WithKey(s, key, k)
  {
    if s == [] || key(x) <= key(s[0]) {
      WithKeyAppend([x], s, key, k);
    } else {
      var tail := InsertBy(x, s[1..], key);
      var head := WithKey([s[0]], key, k);
      var xs := if key(x) == k then [x] else [];
      assert key(x) == k ==> head == [];
      calc {
        WithKey(InsertBy(x, s, key), key, k);
        WithKey([s[0]] + tail, key, k);
        { WithKeyAppend([s[0]], tail, key, k); }
        head + WithKey(tail, key, k);
        { InsertByWithKey(x, s[1..], key, k); }
        head + (xs + WithKey(s[1..], key, k));
        { assert head + xs == xs + head; }
        xs + (head + WithKey(s[1..], key, k));
        { WithKeyAppend([s[0]], s[1..], key, k); assert s == [s[0]] + s[1..]; }
        xs + WithKey(s, key, k);
      }
    }
  }

  /**
   Stability: for every key, the elements with that key occur in the sorted
   list in exactly the order they had in the input.
   */
  lemma {:induction false} SortByStable<T>(s: seq<T>, key: T -> int, k: int)
    ensures WithKey(SortBy(s, key), key, k) == WithKey(s, key, k)
  {
    if s != [] {
      SortByStable(s[1..], key, k);
      InsertByWithKey(s[0], SortBy(s[1..], key), key, k);
    }
  }

  /** Sum of the values stored under `keys` in `m`. */
  ghost function SumOver<K>(m: map<K, nat>, keys: set<K>): nat
    requires keys <= m.Keys
    decreases keys
  {
    if keys == {} then 0
    else
      var k :| k in keys;
      m[k] + SumOver(m, keys - {k})
  }

  /** Sum of all values of `m`. */
  ghost function SumValues<K>(m: map<K, nat>): nat
  {
    SumOver(m, m.Keys)
  }

  /** The sum does not depend on which key is taken out first. */
  lemma {:induction false} SumOverRemove<K>(m: map<K, nat>, keys: set<K>, k: K)
    requires keys <= m.Keys
    requires k in keys
    ensures SumOver(m, keys) == m[k] + SumOver(m, keys - {k})
    decreases keys
  {
    var j :| j in keys && SumOver(m, keys) == m[j] + SumOver(m, keys - {j});
    if j != k {
      SumOverRemove(m, keys - {j}, k);
      SumOverRemove(m, keys - {k}, j);
      assert keys - {j} - {k} == keys - {k} - {j};
    }
  }

  /** Two maps that agree on `keys` have the same sum over `keys`. */
  lemma {:induction false} SumOverAgree<K>(m1: map<K, nat>, m2: map<K, nat>, keys: set<K>)
    requires keys <= m1.Keys && keys <= m2.Keys
    requires forall k :: k in keys ==> m1[k] == m2[k]
    ensures SumOver(m1, keys) == SumOver(m2, keys)
    decreases keys
  {
    if keys != {} {
      var k :| k in keys;
      SumOverRemove(m1, keys, k);
      SumOverRemove(m2, keys, k);
      SumOverAgree(m1, m2, keys - {k});
    }
  }

  /** Adding one to the count of `k` (or storing 1 under a new `k`) adds one to the sum. */
  lemma IncrementSum<K>(m: map<K, nat>, k: K)
    ensures SumValues(m[k := if k in m then m[k] + 1 else 1]) == SumValues(m) + 1
  {
    var m' := m[k := if k in m then m[k] + 1 else 1];
    if k in m {
      assert m'.Keys == m.Keys;
      SumOverRemove(m', m'.Keys, k);
      SumOverRemove(m, m.Keys, k);
      SumOverAgree(m, m', m.Keys - {k});
    } else {
      assert m'.Keys - {k} == m.Keys;
      SumOverRemove(m', m'.Keys, k);
      SumOverAgree(m, m', m.Keys);
    }
  }
}

=== FILE: story_analysis.dfy ===
/**
 The story-structure analysis: list sizes, the role histogram, the estimated
 story length and the pacing scan over the sorted milestone chapters.
 */
module StoryAnalysis {
  import opened SeqUtil
  import opened StoryRecords

  /** Two consecutive milestone chapters more than three chapters apart. */
  datatype PacingGap = PacingGap(fromChapter: int, toChapter: int)

  datatype Analysis = Analysis(
    characterCount: nat,
    arcCount: nat,
    milestoneCount: nat,
    estimatedLength: int,
    characterRoles: map<string, nat>,
    pacingAnalysis: seq<PacingGap>)

  /** The pacing threshold: a gap is reported only when strictly larger. */
  const MaxQuietChapters: int := 3

  /** The roles that occur among the characters. */
  function RolesOf(cs: seq<Character>): set<string>
  {
    set i | 0 <= i < |cs| :: cs[i].role
  }

  /**
   The role histogram, built by one pass over the characters: its keys are
   exactly the roles that occur, each maps to the number of characters with that
   role, and the counts add up to the number of characters.
   */
  method RoleHistogram(cs: seq<Character>) returns (h: map<string, nat>)
    ensures h.Keys == RolesOf(cs)
    ensures forall role :: role in h ==> h[role] == CountRole(cs, role) && h[role] > 0
    ensures SumValues(h) == |cs|
  {
    h := map[];
    var i := 0;
    while i < |cs|
      invariant 0 <= i <= |cs|
      invariant IsHistogramOf(h, cs[..i])
    {
      assert cs[..i + 1] == cs[..i] + [cs[i]];
      HistogramStep(cs[..i], cs[i], h);
      h := h[cs[i].role := if cs[i].role in h then h[cs[i].role] + 1 else 1];
      i := i + 1;
    }
    assert cs[..i] == cs;
  }

  /** `h` is the role histogram of `cs`. */
  ghost predicate IsHistogramOf(h: map<string, nat>, cs: seq<Character>)
  {
    && h.Keys == RolesOf(cs)
    && (forall role :: role in h ==> h[role] == CountRole(cs, role) && h[role] > 0)
    && SumValues(h) == |cs|
  }

  /** Counting one more character keeps the histogram exact. */
  lemma HistogramStep(cs: seq<Character>, c: Character, h: map<string, nat>)
    requires IsHistogramOf(h, cs)
    ensures IsHistogramOf(h[c.role := if c.role in h then h[c.role] + 1 else 1], cs + [c])
  {
    var h' := h[c.role := if c.role in h then h[c.role] + 1 else 1];
    assert h'.Keys == RolesOf(cs + [c]) by {
      RolesOfSnoc(cs, c);
    }
    assert SumValues(h') == |cs + [c]| by {
      IncrementSum(h, c.role);
    }
    HistogramCountsStep(cs, c, h);
  }

  /** The per-role counts stay exact when one more character is counted. */
  lemma HistogramCountsStep(cs: seq<Character>, c: Character, h: map<string, nat>)
    requires forall role :: role in h ==> h[role] == CountRole(cs, role) && h[role] > 0
    requires h.Keys == RolesOf(cs)
    ensures var h' := h[c.role := if c.role in h then h[c.role] + 1 else 1];
            forall role :: role in h' ==> h'[role] == CountRole(cs + [c], role) && h'[role] > 0
  {
    var h' := h[c.role := if c.role in h then h[c.role] + 1 else 1];
    forall role | role in h' ensures h'[role] == CountRole(cs + [c], role) && h'[role] > 0 {
      CountRoleSnoc(cs, c, role);
      if role != c.role {
        assert h'[role] == h[role];
      }
    }
  }

  lemma RolesOfSnoc(cs: seq<Character>, c: Character)
    ensures RolesOf(cs + [c]) == RolesOf(cs) + {c.role}
  {
    var t := cs + [c];
    forall x | x in RolesOf(t) ensures x in RolesOf(cs) + {c.role} {
      var j :| 0 <= j < |t| && t[j].role == x;
      if j < |cs| {
        assert cs[j].role == x;
      }
    }
    forall x | x in RolesOf(cs) ensures x in RolesOf(t) {
      var j :| 0 <= j < |cs| && cs[j].role == x;
      assert t[j].role == x;
    }
    assert t[|cs|].role == c.role;
  }

  /**
   The estimated story length: the largest milestone chapter when there are
   milestones, else the largest arc end chapter when there are arcs, else 0.
   */
  function EstimatedLength(arcs: seq<StoryArc>, ms: seq<Milestone>): (n: int)
    ensures ms != [] ==> (forall i :: 0 <= i < |ms| ==> ms[i].chapter <= n)
                         && exists i :: 0 <= i < |ms| && ms[i].chapter == n
    ensures ms == [] && arcs != [] ==> (forall i :: 0 <= i < |arcs| ==> arcs[i].endChapter <= n)
                                       && exists i :: 0 <= i < |arcs| && arcs[i].endChapter == n
    ensures ms == [] && arcs == [] ==> n == 0
  {
    if ms != [] then Max(Chapters(ms))
    else if arcs != [] then Max(EndChapters(arcs))
    else 0
  }

  /** The milestone chapters in ascending order. */
  function SortedChapters(ms: seq<Milestone>): (r: seq<int>)
    ensures |r| == |ms|
    ensures forall i, j :: 0 <= i < j < |r| ==> r[i] <= r[j]
    ensures multiset(r) == multiset(Chapters(ms))
  {
    var r := SortBy(Chapters(ms), Identity);
    assert forall i, j :: 0 <= i < j < |r| ==> Identity(r[i]) <= Identity(r[j]);
    r
  }

  /** Chapters `i` and `i + 1` of `s` are more than the threshold apart. */
  predicate LargeGapAt(s: seq<int>, i: int)
  {
    0 <= i < |s| - 1 && s[i + 1] - s[i] > MaxQuietChapters
  }

  /** The positions among the first `n` adjacent pairs of `s` that are large gaps. */
  function LargeGapPositions(s: seq<int>, n: int): set<int>
  {
    set i | 0 <= i < n && LargeGapAt(s, i)
  }

  /**
   The pacing scan over a list of chapters: one entry per adjacent pair whose
   difference exceeds the threshold, so at most one per adjacent pair, and none
   at all when no difference exceeds it.
   */
  method PacingGaps(chapters: seq<int>) returns (gaps: seq<PacingGap>)
    ensures IsPacingReport(chapters, gaps)
    ensures gaps == GapsInOrder(chapters, |chapters| - 1)
  {
    gaps := [];
    var i := 0;
    while i < |chapters| - 1
      invariant 0 <= i && (i <= |chapters| - 1 || (i == 0 && |chapters| <= 1))
      invariant ScannedUpTo(chapters, i, gaps)
      invariant gaps == GapsInOrder(chapters, i)
    {
      if chapters[i + 1] - chapters[i] > MaxQuietChapters {
        ScanStepGap(chapters, i, gaps);
        gaps := gaps + [GapAt(chapters, i)];
      } else {
        ScanStepQuiet(chapters, i, gaps);
      }
      i := i + 1;
    }
    ScanDone(chapters, i, gaps);
  }

  /**
   The reference list of pacing entries for the first `n` adjacent pairs of
   `s`, pair by pair from the front.
   */
  function GapsInOrder(s: seq<int>, n: int): seq<PacingGap>
    requires n <= |s| - 1 || n <= 0
  {
    if n <= 0 then []
    else GapsInOrder(s, n - 1) + (if LargeGapAt(s, n - 1) then [GapAt(s, n - 1)] else [])
  }

  /** The pacing entry for the pair of chapters at positions `i` and `i + 1`. */
  function GapAt(s: seq<int>, i: int): PacingGap
    requires 0 <= i < |s| - 1
  {
    PacingGap(s[i], s[i + 1])
  }

  /**
   `gaps` reports the pacing of `s`: it has one entry per adjacent pair whose
   difference exceeds the threshold (so at most one per adjacent pair), each
   entry is such a pair, every such pair has an entry, and it is empty exactly
   when no difference exceeds the threshold.
   */
  ghost predicate IsPacingReport(s: seq<int>, gaps: seq<PacingGap>)
  {
    && |gaps| == |LargeGapPositions(s, |s| - 1)|
    && |gaps| <= (if |s| == 0 then 0 else |s| - 1)
    && (forall k :: 0 <= k < |gaps| ==> exists i :: LargeGapAt(s, i) && gaps[k] == GapAt(s, i))
    && (forall i :: LargeGapAt(s, i) ==> GapAt(s, i) in gaps)
    && (gaps == [] <==> forall i :: 0 <= i < |s| - 1 ==> !LargeGapAt(s, i))
  }

  /** `gaps` is what the scan reports for the first `n` adjacent pairs of `s`. */
  ghost predicate ScannedUpTo(s: seq<int>, n: int, gaps: seq<PacingGap>)
  {
    && |gaps| == |LargeGapPositions(s, n)|
    && |gaps| <= n
    && (forall k :: 0 <= k < |gaps| ==>
          exists j :: 0 <= j < n && LargeGapAt(s, j) && gaps[k] == GapAt(s, j))
    && (forall j :: 0 <= j < n && LargeGapAt(s, j) ==> GapAt(s, j) in gaps)
  }

  lemma ScanStepGap(s: seq<int>, n: int, gaps: seq<PacingGap>)
    requires 0 <= n < |s| - 1 && LargeGapAt(s, n)
    requires ScannedUpTo(s, n, gaps)
    ensures ScannedUpTo(s, n + 1, gaps + [GapAt(s, n)])
  {
    var before := LargeGapPositions(s, n);
    assert n !in before;
    assert LargeGapPositions(s, n + 1) == before + {n};
    var gaps' := gaps + [GapAt(s, n)];
    forall k | 0 <= k < |gaps'|
      ensures exists j :: 0 <= j < n + 1 && LargeGapAt(s, j) && gaps'[k] == GapAt(s, j)
    {
      if k < |gaps| {
        var j :| 0 <= j < n && LargeGapAt(s, j) && gaps[k] == GapAt(s, j);
        assert gaps'[k] == GapAt(s, j);
      } else {
        assert gaps'[k] == GapAt(s, n);
      }
    }
    forall j | 0 <= j < n + 1 && LargeGapAt(s, j) ensures GapAt(s, j) in gaps' {
      if j < n {
        assert GapAt(s, j) in gaps;
      } else {
        assert gaps'[|gaps|] == GapAt(s, j);
      }
    }
  }

  lemma ScanStepQuiet(s: seq<int>, n: int, gaps: seq<PacingGap>)
    requires 0 <= n < |s| - 1 && !LargeGapAt(s, n)
    requires ScannedUpTo(s, n, gaps)
    ensures ScannedUpTo(s, n + 1, gaps)
  {
    assert LargeGapPositions(s, n + 1) == LargeGapPositions(s, n);
    forall k | 0 <= k < |gaps|
      ensures exists j :: 0 <= j < n + 1 && LargeGapAt(s, j) && gaps[k] == GapAt(s, j)
    {
      var j :| 0 <= j < n && LargeGapAt(s, j) && gaps[k] == GapAt(s, j);
    }
  }

  lemma ScanDone(s: seq<int>, n: int, gaps: seq<PacingGap>)
    requires n == |s| - 1 || (n == 0 && |s| <= 1)
    requires ScannedUpTo(s, n, gaps)
    ensures IsPacingReport(s, gaps)
  {
    assert LargeGapPositions(s, |s| - 1) == LargeGapPositions(s, n);
    if gaps != [] {
      var k := 0;
      var j :| 0 <= j < n && LargeGapAt(s, j) && gaps[k] == GapAt(s, j);
    }
  }

  /**
   The analysis of the three lists: their sizes, the role histogram, the
   estimated length, and the pacing gaps of the sorted milestone chapters.
   */
  method AnalyzeStoryStructure(cs: seq<Character>, arcs: seq<StoryArc>, ms: seq<Milestone>)
    returns (a: Analysis)
    ensures a.characterCount == |cs| && a.arcCount == |arcs| && a.milestoneCount == |ms|
    ensures a.characterRoles.Keys == RolesOf(cs)
    ensures forall role :: role in a.characterRoles ==> a.characterRoles[role] == CountRole(cs, role)
    ensures SumValues(a.characterRoles) == a.characterCount
    ensures a.estimatedLength == EstimatedLength(arcs, ms)
    ensures ms == [] ==> a.pacingAnalysis == []
    ensures IsPacingReport(SortedChapters(ms), a.pacingAnalysis)
    ensures ms != [] ==> a.pacingAnalysis == GapsInOrder(SortedChapters(ms), |ms| - 1)
  {
    var roles := RoleHistogram(cs);
    var pacing := MilestonePacing(ms);
    a := Analysis(|cs|, |arcs|, |ms|, EstimatedLength(arcs, ms), roles, pacing);
  }

  /** The pacing part of the analysis: the scan of the sorted milestone chapters, if there are milestones. */
  method MilestonePacing(ms: seq<Milestone>) returns (pacing: seq<PacingGap>)
    ensures ms == [] ==> pacing == []
    ensures IsPacingReport(SortedChapters(ms), pacing)
    ensures ms != [] ==> pacing == GapsInOrder(SortedChapters(ms), |ms| - 1)
  {
    var chapters := SortedChapters(ms);
    assert |chapters| == |ms|;
    if ms != [] {
      pacing := PacingGaps(chapters);
    } else {
      pacing := [];
      NoChaptersNoPacing(chapters);
    }
  }

  /** Without chapters there is nothing to report. */
  lemma NoChaptersNoPacing(s: seq<int>)
    requires s == []
    ensures IsPacingReport(s, [])
  {
    assert LargeGapPositions(s, -1) == {};
  }

  /** Examples: chapters 1, 2, 10 give one gap (2 to 10); 1, 2, 3 give none. */
  method PacingExamples() returns (one: seq<PacingGap>, none: seq<PacingGap>)
    ensures one == [PacingGap(2, 10)]
    ensures none == []
  {
    one := PacingGaps([1, 2, 10]);
    assert !LargeGapAt([1, 2, 10], 0);
    assert LargeGapPositions([1, 2, 10], 2) == {1};
    assert |one| == 1;
    none := PacingGaps([1, 2, 3]);
    assert !LargeGapAt([1, 2, 3], 0) && !LargeGapAt([1, 2, 3], 1);
  }
}

=== FILE: story_records.dfy ===
/**
 The flat records the story editor keeps in its lists, the factories that build
 them, and the export bundle. Creation and export timestamps are not read from a
 clock: the caller passes them in as opaque strings.
 */
module StoryRecords {
  import opened SeqUtil

  /** Python's `Optional[str]`: `None` or a string. */
  datatype Option<T> = None | Some(value: T)

  datatype Character = Character(
    name: string,
    role: string,
    age: int,
    personality: string,
    background: string,
    goals: string,
    createdAt: string)

  /** Chapter numbers are unchecked: `startChapter > endChapter` is accepted. */
  datatype StoryArc = StoryArc(
    name: string,
    description: string,
    startChapter: int,
    endChapter: int,
    themes: string,
    characters: seq<string>,
    createdAt: string)

  datatype Milestone = Milestone(
    name: string,
    description: string,
    chapter: int,
    milestoneType: string,
    impact: string,
    relatedArc: Option<string>,
    createdAt: string)

  /** Built by the editor page itself; there is no factory for it. */
  datatype DialogueScene = DialogueScene(
    name: string,
    chapter: int,
    characters: seq<string>,
    dialogue: string,
    branches: seq<string>)

  /** The snapshot assembled for every export. */
  datatype ExportBundle = ExportBundle(
    storyConcept: string,
    characters: seq<Character>,
    storyArcs: seq<StoryArc>,
    milestones: seq<Milestone>,
    dialogueScenes: seq<DialogueScene>,
    exportDate: string)

  const MainCharacter: string := "Main Character"
  const LoveInterest: string := "Love Interest"
  const HighImpact: string := "High"
  const CriticalImpact: string := "Critical"

  function CreateCharacter(
    name: string, role: string, age: int, personality: string,
    background: string, goals: string, createdAt: string): (c: Character)
    ensures c.name == name && c.role == role && c.age == age
    ensures c.personality == personality && c.background == background && c.goals == goals
    ensures c.createdAt == createdAt
  {
    Character(name, role, age, personality, background, goals, createdAt)
  }

  function CreateStoryArc(
    name: string, description: string, startChapter: int, endChapter: int,
    themes: string, characters: seq<string>, createdAt: string): (a: StoryArc)
    ensures a.name == name && a.description == description
    ensures a.startChapter == startChapter && a.endChapter == endChapter
    ensures a.themes == themes && a.characters == characters && a.createdAt == createdAt
  {
    StoryArc(name, description, startChapter, endChapter, themes, characters, createdAt)
  }

  function CreateMilestone(
    name: string, description: string, chapter: int, milestoneType: string,
    impact: string, relatedArc: Option<string>, createdAt: string): (m: Milestone)
    ensures m.name == name && m.description == description && m.chapter == chapter
    ensures m.milestoneType == milestoneType && m.impact == impact
    ensures m.relatedArc == relatedArc && m.createdAt == createdAt
  {
    Milestone(name, description, chapter, milestoneType, impact, relatedArc, createdAt)
  }

  /** Every record is the one its factory builds from the record's own fields. */
  lemma FactoriesCoverAllRecords(c: Character, a: StoryArc, m: Milestone)
    ensures CreateCharacter(c.name, c.role, c.age, c.personality, c.background, c.goals, c.createdAt) == c
    ensures CreateStoryArc(a.name, a.description, a.startChapter, a.endChapter, a.themes, a.characters, a.createdAt) == a
    ensures CreateMilestone(m.name, m.description, m.chapter, m.milestoneType, m.impact, m.relatedArc, m.createdAt) == m
  {
  }

  function ChapterOf(m: Milestone): int { m.chapter }

  function Identity(x: int): int { x }

  /** The chapters of the milestones, in list order. */
  function Chapters(ms: seq<Milestone>): (r: seq<int>)
    ensures |r| == |ms|
    ensures forall i :: 0 <= i < |ms| ==> r[i] == ms[i].chapter
  {
    seq(|ms|, i requires 0 <= i < |ms| => ms[i].chapter)
  }

  /** The end chapters of the arcs, in list order. */
  function EndChapters(arcs: seq<StoryArc>): (r: seq<int>)
    ensures |r| == |arcs|
    ensures forall i :: 0 <= i < |arcs| ==> r[i] == arcs[i].endChapter
  {
    seq(|arcs|, i requires 0 <= i < |arcs| => arcs[i].endChapter)
  }

  /** Number of characters whose role is exactly `role`. */
  function CountRole(cs: seq<Character>, role: string): nat
  {
    Count(cs, (c: Character) => c.role == role)
  }

  /** Number of characters that are neither Main Character nor Love Interest. */
  function CountSupporting(cs: seq<Character>): nat
  {
    Count(cs, (c: Character) => c.role != MainCharacter && c.role != LoveInterest)
  }

  /** Number of milestones whose impact is exactly `impact`. */
  function CountImpact(ms: seq<Milestone>, impact: string): nat
  {
    Count(ms, (m: Milestone) => m.impact == impact)
  }

  /** Appending a character adds one to the count of its own role only. */
  lemma CountRoleSnoc(cs: seq<Character>, c: Character, role: string)
    ensures CountRole(cs + [c], role) == CountRole(cs, role) + (if c.role == role then 1 else 0)
  {
    CountAppend(cs, [c], (c: Character) => c.role == role);
    assert [c][1..] == [];
  }

  /**
   Every character is exactly one of Main Character, Love Interest or
   supporting, so the three counts add up to the list length.
   */
  lemma {:induction false} RolePartition(cs: seq<Character>)
    ensures CountRole(cs, MainCharacter) + CountSupporting(cs) + CountRole(cs, LoveInterest) == |cs|
  {
    if cs != [] {
      RolePartition(cs[1..]);
    }
  }
}

=== FILE: story_validation.dfy ===
/**
 The rule-based structure check: main-character count, chapter coverage of
 the story arcs, and milestone impact levels.
 */
module StoryValidation {
  import opened SeqUtil
  import opened StoryRecords

  datatype Warning =
    | AddMainCharacter
    | TooManyMainCharacters
    | UncoveredChapters
    | TooManyCriticalMilestones
    | NoHighImpactMilestones

  /** The position of each warning in the order the rules are checked. */
  function WarningRank(w: Warning): int
  {
    match w
    case AddMainCharacter => 0
    case TooManyMainCharacters => 1
    case UncoveredChapters => 2
    case TooManyCriticalMilestones => 3
    case NoHighImpactMilestones => 4
  }

  /** The warnings come in strictly increasing rule order, so none repeats. */
  predicate InRuleOrder(r: seq<Warning>)
  {
    forall i, j :: 0 <= i < j < |r| ==> WarningRank(r[i]) < WarningRank(r[j])
  }

  /** More than this many main characters, or critical milestones, draws a warning. */
  const ManyThreshold: int := 3

  /** Chapter `c` lies in the inclusive range of arc `a`. */
  predicate InArc(a: StoryArc, c: int)
  {
    a.startChapter <= c <= a.endChapter
  }

  /**
   The chapters from `lo` to `hi` inclusive (Python's `range(lo, hi + 1)` as a
   set); empty when `lo > hi`, and otherwise of size `hi - lo + 1`.
   */
  function ChapterSpan(lo: int, hi: int): (r: set<int>)
    ensures forall c :: c in r <==> lo <= c <= hi
    ensures |r| == if lo <= hi then hi - lo + 1 else 0
    decreases hi - lo
  {
    if lo > hi then {}
    else
      var below := ChapterSpan(lo, hi - 1);
      assert hi !in below;
      below + {hi}
  }

  /** The chapters an arc covers. */
  function ArcChapters(a: StoryArc): (r: set<int>)
    ensures forall c :: c in r <==> InArc(a, c)
  {
    ChapterSpan(a.startChapter, a.endChapter)
  }

  /** The union of the inclusive chapter ranges of all arcs, added arc by arc. */
  function CoveredChapters(arcs: seq<StoryArc>): (r: set<int>)
    ensures forall c :: c in r <==> exists i :: 0 <= i < |arcs| && InArc(arcs[i], c)
  {
    if arcs == [] then {}
    else
      var prefix := arcs[..|arcs| - 1];
      var init := CoveredChapters(prefix);
      assert forall i :: 0 <= i < |prefix| ==> prefix[i] == arcs[i];
      var r := init + ArcChapters(arcs[|arcs| - 1]);
      CoveredStep(arcs, init, r);
      r
  }

  /** Adding the last arc's chapters to the coverage of the others gives the coverage of all. */
  lemma CoveredStep(arcs: seq<StoryArc>, init: set<int>, r: set<int>)
    requires arcs != []
    requires forall c :: c in init <==> exists i :: 0 <= i < |arcs| - 1 && InArc(arcs[i], c)
    requires r == init + ArcChapters(arcs[|arcs| - 1])
    ensures forall c :: c in r <==> exists i :: 0 <= i < |arcs| && InArc(arcs[i], c)
  {
    var n := |arcs| - 1;
    forall c | c in r ensures exists i :: 0 <= i < |arcs| && InArc(arcs[i], c) {
      if c in init {
        var i :| 0 <= i < n && InArc(arcs[i], c);
      } else {
        assert InArc(arcs[n], c);
      }
    }
    forall c | exists i :: 0 <= i < |arcs| && InArc(arcs[i], c) ensures c in r {
      var i :| 0 <= i < |arcs| && InArc(arcs[i], c);
    }
  }

  /** The largest end chapter of a non-empty list of arcs. */
  function MaxEndChapter(arcs: seq<StoryArc>): (n: int)
    requires arcs != []
    ensures forall i :: 0 <= i < |arcs| ==> arcs[i].endChapter <= n
    ensures exists i :: 0 <= i < |arcs| && arcs[i].endChapter == n
  {
    Max(EndChapters(arcs))
  }

  /** "Add a main character" when there is none, "too many" when there are more than three. */
  function MainCharacterWarnings(cs: seq<Character>): (r: seq<Warning>)
    ensures AddMainCharacter in r <==> forall i :: 0 <= i < |cs| ==> cs[i].role != MainCharacter
    ensures TooManyMainCharacters in r <==> CountRole(cs, MainCharacter) > ManyThreshold
    ensures UncoveredChapters !in r && TooManyCriticalMilestones !in r && NoHighImpactMilestones !in r
    ensures |r| <= 1
    ensures forall i :: 0 <= i < |r| ==> WarningRank(r[i]) <= 1
  {
    var mains := CountRole(cs, MainCharacter);
    if mains == 0 then [AddMainCharacter]
    else if mains > ManyThreshold then [TooManyMainCharacters]
    else []
  }

  /** The coverage warning: fewer distinct covered chapters than the largest end chapter. */
  function CoverageWarnings(arcs: seq<StoryArc>): (r: seq<Warning>)
    ensures UncoveredChapters in r <==> arcs != [] && |CoveredChapters(arcs)| < MaxEndChapter(arcs)
    ensures AddMainCharacter !in r && TooManyMainCharacters !in r
    ensures TooManyCriticalMilestones !in r && NoHighImpactMilestones !in r
    ensures |r| <= 1
    ensures forall i :: 0 <= i < |r| ==> WarningRank(r[i]) == 2
  {
    if arcs != [] && |CoveredChapters(arcs)| < MaxEndChapter(arcs) then [UncoveredChapters] else []
  }

  /** The impact warnings, given only when there are milestones. */
  function MilestoneWarnings(ms: seq<Milestone>): (r: seq<Warning>)
    ensures TooManyCriticalMilestones in r <==> ms != [] && CountImpact(ms, CriticalImpact) > ManyThreshold
    ensures NoHighImpactMilestones in r <==>
              ms != [] && forall i :: 0 <= i < |ms| ==> ms[i].impact != HighImpact && ms[i].impact != CriticalImpact
    ensures AddMainCharacter !in r && TooManyMainCharacters !in r && UncoveredChapters !in r
    ensures |r| <= 2
    ensures forall i :: 0 <= i < |r| ==> WarningRank(r[i]) >= 3
    ensures InRuleOrder(r)
  {
    var noHigh := CountImpact(ms, HighImpact) == 0 && CountImpact(ms, CriticalImpact) == 0;
    assert noHigh <==> forall i :: 0 <= i < |ms| ==> ms[i].impact != HighImpact && ms[i].impact != CriticalImpact;
    (if ms != [] && CountImpact(ms, CriticalImpact) > ManyThreshold then [TooManyCriticalMilestones] else [])
    + (if ms != [] && noHigh then [NoHighImpactMilestones] else [])
  }

  /**
   The warnings for the three lists, each at most once and in the order main
   characters, coverage, critical milestones, high-impact milestones. The two main-character
   warnings exclude each other; the coverage warning needs arcs and the
   milestone warnings need milestones.
   */
  function ValidateStoryStructure(cs: seq<Character>, arcs: seq<StoryArc>, ms: seq<Milestone>)
    : (r: seq<Warning>)
    ensures AddMainCharacter in r <==> forall i :: 0 <= i < |cs| ==> cs[i].role != MainCharacter
    ensures TooManyMainCharacters in r <==> CountRole(cs, MainCharacter) > ManyThreshold
    ensures !(AddMainCharacter in r && TooManyMainCharacters in r)
    ensures UncoveredChapters in r <==> arcs != [] && |CoveredChapters(arcs)| < MaxEndChapter(arcs)
    ensures TooManyCriticalMilestones in r <==> ms != [] && CountImpact(ms, CriticalImpact) > ManyThreshold
    ensures NoHighImpactMilestones in r <==>
              ms != [] && forall i :: 0 <= i < |ms| ==> ms[i].impact != HighImpact && ms[i].impact != CriticalImpact
    ensures |r| <= 4
    ensures InRuleOrder(r)
  {
    JoinedWarnings(cs, arcs, ms);
    MainCharacterWarnings(cs) + CoverageWarnings(arcs) + MilestoneWarnings(ms)
  }

  /** The three rule groups joined in order give each warning under its rule, in rule order. */
  lemma JoinedWarnings(cs: seq<Character>, arcs: seq<StoryArc>, ms: seq<Milestone>)
    ensures var r := MainCharacterWarnings(cs) + CoverageWarnings(arcs) + MilestoneWarnings(ms);
            && (AddMainCharacter in r <==> forall i :: 0 <= i < |cs| ==> cs[i].role != MainCharacter)
            && (TooManyMainCharacters in r <==> CountRole(cs, MainCharacter) > ManyThreshold)
            && !(AddMainCharacter in r && TooManyMainCharacters in r)
            && (UncoveredChapters in r <==> arcs != [] && |CoveredChapters(arcs)| < MaxEndChapter(arcs))
            && (TooManyCriticalMilestones in r <==> ms != [] && CountImpact(ms, CriticalImpact) > ManyThreshold)
            && (NoHighImpactMilestones in r <==>
                  ms != [] && forall i :: 0 <= i < |ms| ==> ms[i].impact != HighImpact && ms[i].impact != CriticalImpact)
            && |r| <= 4
            && InRuleOrder(r)
  {
    var main, coverage, impact := MainCharacterWarnings(cs), CoverageWarnings(arcs), MilestoneWarnings(ms);
    RuleOrderConcat(main, coverage, impact);
    InJoined(main, coverage, impact, AddMainCharacter);
    InJoined(main, coverage, impact, TooManyMainCharacters);
    InJoined(main, coverage, impact, UncoveredChapters);
    InJoined(main, coverage, impact, TooManyCriticalMilestones);
    InJoined(main, coverage, impact, NoHighImpactMilestones);
  }

  lemma InJoined(a: seq<Warning>, b: seq<Warning>, c: seq<Warning>, w: Warning)
    ensures w in a + b + c <==> w in a || w in b || w in c
  {
  }

  /** Joining at most one main-character warning, at most one coverage warning and ordered impact warnings keeps the rule order. */
  lemma RuleOrderConcat(main: seq<Warning>, coverage: seq<Warning>, impact: seq<Warning>)
    requires |main| <= 1 && forall i :: 0 <= i < |main| ==> WarningRank(main[i]) <= 1
    requires |coverage| <= 1 && forall i :: 0 <= i < |coverage| ==> WarningRank(coverage[i]) == 2
    requires forall i :: 0 <= i < |impact| ==> WarningRank(impact[i]) >= 3
    requires InRuleOrder(impact)
    ensures InRuleOrder(main + coverage + impact)
  {
    var r := main + coverage + impact;
    var k := |main| + |coverage|;
    forall i, j | 0 <= i < j < |r| ensures WarningRank(r[i]) < WarningRank(r[j]) {
      if j < k {
        assert i < |main| <= j;
        assert r[i] == main[i] && r[j] == coverage[j - |main|];
      } else if i < k {
        assert r[j] == impact[j - k];
        if i < |main| {
          assert r[i] == main[i];
        } else {
          assert r[i] == coverage[i - |main|];
        }
      } else {
        assert r[i] == impact[i - k] && r[j] == impact[j - k];
      }
    }
  }

  /** An arc whose start lies after its end covers nothing, so it never changes the coverage. */
  lemma EmptyArcAddsNothing(arcs: seq<StoryArc>, a: StoryArc)
    requires a.startChapter > a.endChapter
    ensures CoveredChapters(arcs + [a]) == CoveredChapters(arcs)
  {
    assert (arcs + [a])[..|arcs|] == arcs;
    assert ArcChapters(a) == {};
  }

  lemma SubsetSize(a: set<int>, b: set<int>)
    requires a <= b
    ensures |a| <= |b|
  {
    assert b == a + (b - a);
    assert a * (b - a) == {};
  }

  /**
   The coverage check never fires when every chapter from 1 up to the largest
   end chapter is covered; so a coverage warning always points at some chapter
   in that range that no arc covers.
   */
  lemma CoverageWarningHasUncoveredChapter(cs: seq<Character>, arcs: seq<StoryArc>, ms: seq<Milestone>)
    requires UncoveredChapters in ValidateStoryStructure(cs, arcs, ms)
    ensures exists c :: 1 <= c <= MaxEndChapter(arcs) && c !in CoveredChapters(arcs)
  {
    var top := MaxEndChapter(arcs);
    var covered := CoveredChapters(arcs);
    if forall c :: 1 <= c <= top ==> c in covered {
      assert ChapterSpan(1, top) <= covered;
      SubsetSize(ChapterSpan(1, top), covered);
      assert false;
    }
  }

  /**
   When every arc starts at chapter 1 or later, as the editor enforces, the
   coverage check is exact: it fires precisely when some chapter from 1 to
   the largest end chapter is covered by no arc. A warning without an
   uncovered chapter in that range therefore needs an arc starting before 1.
   */
  lemma CoverageWarningExactFromChapterOne(cs: seq<Character>, arcs: seq<StoryArc>, ms: seq<Milestone>)
    requires forall i :: 0 <= i < |arcs| ==> arcs[i].startChapter >= 1
    ensures UncoveredChapters in ValidateStoryStructure(cs, arcs, ms)
            <==> arcs != [] && exists c :: 1 <= c <= MaxEndChapter(arcs) && c !in CoveredChapters(arcs)
  {
    if arcs != [] {
      var top := MaxEndChapter(arcs);
      var covered := CoveredChapters(arcs);
      if exists c :: 1 <= c <= top && c !in covered {
        var c :| 1 <= c <= top && c !in covered;
        UncoveredChapterShrinksCount(arcs, c);
      } else {
        assert ChapterSpan(1, top) <= covered;
        SubsetSize(ChapterSpan(1, top), covered);
      }
    }
  }

  /** With every arc starting at chapter 1 or later, every covered chapter lies between 1 and the largest end. */
  lemma CoveredWithinOneToMaxEnd(arcs: seq<StoryArc>)
    requires arcs != []
    requires forall i :: 0 <= i < |arcs| ==> arcs[i].startChapter >= 1
    ensures CoveredChapters(arcs) <= ChapterSpan(1, MaxEndChapter(arcs))
  {
    var top := MaxEndChapter(arcs);
    forall x | x in CoveredChapters(arcs) ensures 1 <= x <= top {
      var i :| 0 <= i < |arcs| && InArc(arcs[i], x);
      assert arcs[i].endChapter <= top;
    }
  }

  /** With every arc starting at chapter 1 or later, one uncovered chapter up to the largest end leaves the count short. */
  lemma UncoveredChapterShrinksCount(arcs: seq<StoryArc>, c: int)
    requires arcs != []
    requires forall i :: 0 <= i < |arcs| ==> arcs[i].startChapter >= 1
    requires 1 <= c <= MaxEndChapter(arcs) && c !in CoveredChapters(arcs)
    ensures |CoveredChapters(arcs)| < MaxEndChapter(arcs)
  {
    var top := MaxEndChapter(arcs);
    var covered := CoveredChapters(arcs);
    var span := ChapterSpan(1, top);
    CoveredWithinOneToMaxEnd(arcs);
    assert covered <= span - {c};
    SubsetSize(covered, span - {c});
    assert |span - {c}| == |span| - 1;
  }

  /**
   With a single arc the coverage check fires exactly when the arc starts
   after chapter 1, or when its range is empty but its end chapter is positive.
   */
  lemma SingleArcCoverage(cs: seq<Character>, a: StoryArc, ms: seq<Milestone>)
    ensures UncoveredChapters in ValidateStoryStructure(cs, [a], ms)
            <==> (if a.startChapter <= a.endChapter then a.startChapter > 1 else a.endChapter > 0)
  {
    assert [a][..0] == [];
    assert CoveredChapters([a]) == ArcChapters(a);
    assert MaxEndChapter([a]) == a.endChapter;
  }

  /** Two arcs cover the union of their chapters. */
  lemma TwoArcCoverage(a: StoryArc, b: StoryArc)
    ensures CoveredChapters([a, b]) == ArcChapters(a) + ArcChapters(b)
  {
    assert [a, b][..1] == [a];
    assert [a][..0] == [];
    assert CoveredChapters([a]) == ArcChapters(a);
  }

  /** Disjoint arcs cover as many chapters as they span together. */
  lemma DisjointArcsSize(a: StoryArc, b: StoryArc)
    requires a.endChapter < b.startChapter
    ensures |ArcChapters(a) + ArcChapters(b)| == |ArcChapters(a)| + |ArcChapters(b)|
  {
    assert ArcChapters(a) * ArcChapters(b) == {};
  }

  /** The largest end chapter of two arcs is the larger of the two. */
  lemma TwoArcMaxEnd(a: StoryArc, b: StoryArc)
    ensures MaxEndChapter([a, b]) == if a.endChapter <= b.endChapter then b.endChapter else a.endChapter
  {
    assert [a, b][0] == a && [a, b][1] == b;
  }

  /** Arcs over chapters -2 to 0 and 2 to 4 cover six chapters, none of them chapter 1. */
  lemma GapExampleCoverage(a: StoryArc, b: StoryArc)
    requires a.startChapter == -2 && a.endChapter == 0
    requires b.startChapter == 2 && b.endChapter == 4
    ensures 1 !in CoveredChapters([a, b])
    ensures |CoveredChapters([a, b])| == 6
  {
    TwoArcCoverage(a, b);
    var sa, sb := ArcChapters(a), ArcChapters(b);
    assert |sa| == 3 && |sb| == 3;
    assert 1 !in sa && 1 !in sb;
    DisjointArcsSize(a, b);
  }

  /**
   The check counts covered chapters rather than locating gaps: arcs over
   chapters -2 to 0 and 2 to 4 cover six chapters, at least the largest end
   chapter 4, so no warning is given although chapter 1 is not covered.
   */
  lemma CoverageCountMissesGap(a: StoryArc, b: StoryArc)
    requires a.startChapter == -2 && a.endChapter == 0
    requires b.startChapter == 2 && b.endChapter == 4
    ensures 1 !in CoveredChapters([a, b])
    ensures UncoveredChapters !in ValidateStoryStructure([], [a, b], [])
  {
    GapExampleCoverage(a, b);
    TwoArcMaxEnd(a, b);
  }
}
